=== FILE: README.md ===
# lumen-train tabular core, modelled in Dafny

lumen-train is a browser "ML pipeline" demo. The upload page parses a CSV file into rows and
column profiles and stores them in a shared data context; a server route parses uploaded CSV
files for a database insert. A results page reports a train/test split and shows a truncated
preview of the stored data. An analysis dialog component computes summary statistics, but no
page renders it. The cleaning page toggles the selection of a hard-coded column list and never
reads the data context. The training page only simulates a run on a timer: nothing calls
`trainModel` (mlTraining.ts:169), the only caller of `prepareData`. This project models the
data logic of these pieces as pure Dafny functions over immutable values, and proves properties
of them. The column-toggling operations, the dialog's statistics and `prepareData` are modelled
on any column list and on rows that own a property for every column name they are asked about
(as uploaded rows do), so they also say what would happen if they were applied to uploaded data.

- **Built-in parsers.** The host parsers the source calls are `Number`, `parseFloat`, `parseInt`
  and `String.prototype.toLowerCase`. They are not re-implemented. Every operation that needs one
  receives it through a `Js.Builtins` record, so each proved statement holds whatever those
  functions return.
- **Numbers and values.** A JavaScript number is `Finite(real) | PosInf | NegInf | NaN`. A dynamic
  value is `Undefined | Null | Str | Num`.
- **Trim.** `String.prototype.trim` is modelled exactly, with the ECMAScript white-space and
  line-terminator set (`Text.Trim`).

Modules, in data-flow order:

| module | file | models |
|---|---|---|
| `Seqs`, `Wrappers`, `Objects` | seqs.dfy, wrappers.dfy, objects.dfy | `filter`/`length`, `Option`/`Result`, property assignment in order |
| `Text`, `Js`, `Helpers` | text.dfy, js.dfy, helpers.dfy | `split`/`trim`/`includes`, JS values and `\|\| null`, `isNumeric` |
| `Dataset` | dataset.dfy | rows (`map<string, Option<string>>`), column profiles, the shared data context |
| `Upload` | upload.dfy | the upload page's CSV parser and column profiler |
| `UploadRoute` | upload_route.dfy | the server route's parser, empty-row filter and insert projection |
| `Clean` | clean.dfy | column toggling and the selected/null totals |
| `NumberOrder`, `Frequencies`, `Analysis` | number_order.dfy, frequencies.dfy, analysis.dfy | the analysis dialog's statistics |
| `Training` | training.dfy | `prepareData` up to the tensors |
| `Results` | results.dfy | the results page's counts and preview truncation |

Places where the program behaves in a way a reader might not expect:

- **Type tags.** The pages use different words for a column's type.
  - The upload page writes "float" or "string".
  - The analysis dialog looks for "float" or "int".
  - Training looks for "number" or "integer".
  - `Training.UploadedDataNeverTrains` proves the result: `prepareData` applied to the upload
    page's columns, after any number of toggles, always fails for want of numeric columns.
- **Two parsers.** The client keeps non-blank lines untrimmed. The server trims lines and then
  drops empty ones. `UploadRoute.SameLinesAsClient` proves that both see the same lines, trimmed on the server.
- **Sorting with NaN.** In the analysis dialog, a column whose values include NaN is sorted with
  an inconsistent comparator, so its min/median/max are left implementation-defined.

The upload page's type test marks a column "float" as soon as one cell passes `Number`. Its null
test counts missing and empty cells only.

## Model

| member | source | states |
|---|---|---|
| Text.Trim | src/pages/Upload.tsx:33 | the result is the input minus a blank prefix and a blank suffix; it is empty exactly when the input is all white space, and otherwise starts and ends with a non-white-space character |
| Text.TrimIdempotent | src/routes/upload.js:19 | trimming a trimmed string changes nothing |
| Text.Split | src/pages/Upload.tsx:32 | `split` yields at least one part, no part holds the separator, and joining the parts with the separator gives back the input |
| Text.SplitJoin | src/pages/Upload.tsx:36 | splitting a join of separator-free parts gives back the parts |
| Text.ContainsAt | src/routes/upload.js:36-38 | `includes` holds whenever the needle occurs at some offset |
| Text.ContainsWitness | src/routes/upload.js:36-38 | `includes` holds only when the needle occurs at some offset |
| Text.Fields | src/pages/Upload.tsx:36 | one trimmed field per comma-separated part, in order |
| Objects.Assign | src/pages/Upload.tsx:37-40 | the object has a property for each key, and a repeated key keeps its last value |
| Helpers.IsNumeric | src/utils/helpers.ts:2-7 | null, undefined and "" are not numeric; a string is numeric iff `parseFloat` is not NaN and `Number` gives a finite value; a number is numeric iff it is finite |
| Upload.ContentLines | src/pages/Upload.tsx:32 | the lines kept are exactly the non-blank lines, in file order, untrimmed |
| Upload.CellAt | src/pages/Upload.tsx:38 | a missing or empty field becomes null, any other field is kept as is |
| Upload.MakeRow | src/pages/Upload.tsx:37-40 | a row has exactly the headers as properties, each holding its (last) position's cell, and never stores "" |
| Upload.DataRows | src/pages/Upload.tsx:35-41 | one row per content line after the header, in order |
| Upload.AnyNumber | src/pages/Upload.tsx:46 | true iff some row's cell is non-empty and `Number` does not give NaN for it |
| Upload.NullCount | src/pages/Upload.tsx:44 | at most one per row; 0 iff every row has a non-empty cell for the header, and the row count iff none has |
| Upload.ProfileColumns | src/pages/Upload.tsx:43-55 | column i has id i+1, the header as name, is selected, has at most one null per row, and is tagged "float" iff some cell passes `Number`, else "string" |
| Upload.ParseCsv | src/pages/Upload.tsx:32-41 | headers are the first content line's trimmed fields, and each later content line becomes a row holding every header |
| Upload.Load | src/pages/Upload.tsx:32-58 | the context holds exactly the parsed rows and the profiles of the parsed headers over them, and the file name; one row per content line after the first, one column per header, all selected |
| Upload.ParsedRowsHaveNoEmptyCells | src/pages/Upload.tsx:38 | no parsed row stores the empty string |
| Upload.NullCountIsNullCells | src/pages/Upload.tsx:44 | on parsed rows the falsy-or-empty count equals the number of null cells |
| Upload.UploadedNulls | src/pages/Upload.tsx:44 | each uploaded column's `nulls` is the number of rows whose cell is null |
| Upload.NumericCellMakesFloat | src/pages/Upload.tsx:46 | a column with any cell the shared `isNumeric` accepts is tagged "float" |
| UploadRoute.TrimmedLines | src/routes/upload.js:19 | every line kept is non-empty and already trimmed |
| UploadRoute.TrimThenFilter | src/routes/upload.js:19 | trimming then dropping empty lines equals dropping blank lines then trimming |
| UploadRoute.SameLinesAsClient | src/routes/upload.js:19 | the server's lines are the client's content lines, trimmed |
| UploadRoute.NormalizeHeaders | src/routes/upload.js:27 | one header per comma-separated part, trimmed then lower-cased |
| UploadRoute.HeaderKey | src/routes/upload.js:36-39 | a header containing "nombre" is stored under "nombre"; else one containing "edad" under "edad"; else one containing "email" under "email"; any other under itself |
| UploadRoute.RoutedKeys | src/routes/upload.js:36-39 | a header goes to "nombre" iff it contains "nombre"; to "edad" iff it contains "edad" but not "nombre"; to "email" iff it contains "email" and neither of the others |
| UploadRoute.CellValue | src/routes/upload.js:36-39 | values are null or truthy; under "edad" the field's `parseInt` or null; elsewhere null iff the field is missing or empty, else the field itself |
| UploadRoute.MakeRecord | src/routes/upload.js:33-40 | the row's properties are exactly the headers' routed keys; each key holds the value of the last header routed to it; every value is well typed for its key |
| UploadRoute.AllRecords | src/routes/upload.js:31-40 | one row object per data line, in order |
| UploadRoute.ParseUpload | src/routes/upload.js:19-52 | error "too few lines" iff fewer than two non-empty lines; error "no valid rows" iff no data row has a non-null value; otherwise the kept rows are an in-order subsequence of all rows: every row with data, and only those |
| UploadRoute.KeptShape | src/routes/upload.js:31-44 | every kept row is well typed and has a "nombre" property iff some header contains "nombre" |
| UploadRoute.InsertRecords | src/routes/upload.js:57-61 | one insert object per kept row, carrying exactly that row's nombre, edad and email |
| UploadRoute.InsertedShape | src/routes/upload.js:55-61 | each inserted nombre/email is undefined, null or a non-empty string; each edad is undefined, null or a non-zero number; nombre is undefined iff no header contains "nombre" |
| Clean.ToggleColumn | src/pages/Clean.tsx:35-39 | only the columns with that id change, and only their selection, which flips |
| Clean.ToggleAll | src/pages/Clean.tsx:35-39 | any series of toggles keeps every column's id, name, type and null count |
| Clean.ToggleTwice | src/pages/Clean.tsx:35-39 | toggling the same id twice restores the columns |
| Clean.ToggleAbsent | src/pages/Clean.tsx:35-39 | toggling an unknown id changes nothing |
| Clean.SelectedCount | src/pages/Clean.tsx:30 | the count is 0 iff nothing is selected, and equals the column count iff everything is |
| Clean.TotalNulls | src/pages/Clean.tsx:31 | the total bounds every column's nulls and is 0 iff every column has none |
| Clean.PreviewColumns | src/pages/Clean.tsx:161 | the preview shows the selected columns in order, each one, and nothing else |
| Clean.PreviewIsUnique | src/pages/Clean.tsx:171 | any in-order choice of exactly the selected columns is the preview |
| Clean.ToggleKeepsTotalNulls | src/pages/Clean.tsx:31-39 | toggling never changes the null total |
| Clean.ToggleSelectedCount | src/pages/Clean.tsx:30-39 | toggling a unique id moves the selected count down by one if that column was selected, else up by one |
| NumberOrder.Sort | src/components/AnalysisDialog.tsx:35 | for NaN-free input the result is an ascending permutation of the input |
| Analysis.Partition | src/components/AnalysisDialog.tsx:23-24 | no column is both numeric and text, and the two groups cover all columns iff every type is "float", "int" or "string" |
| Analysis.UploadedColumnsPartition | src/components/AnalysisDialog.tsx:23-24 | every uploaded column is in exactly one of the two groups |
| Analysis.PresentValues | src/components/AnalysisDialog.tsx:27-30 | the values are the column's present cells in row order: an in-order subsequence of the column holding one value per present cell, none of them "" |
| Analysis.PresentValuesFromRows | src/components/AnalysisDialog.tsx:27-30 | every present value is the cell of some row |
| Analysis.PresentPlusNulls | src/components/AnalysisDialog.tsx:27-30 | on uploaded rows a column's value count plus its null cells is the row count |
| Analysis.Summarize | src/components/AnalysisDialog.tsx:35-38 | the summary is ordered exactly when no value is NaN |
| Analysis.SummaryBounds | src/components/AnalysisDialog.tsx:35-38 | min, median and max are values of the column, min and max bound all values, and min ≤ median ≤ max |
| Analysis.MedianRank | src/components/AnalysisDialog.tsx:38 | at most ⌊n/2⌋ values lie below the median and more than ⌊n/2⌋ lie at or below it |
| Analysis.ColumnStat | src/components/AnalysisDialog.tsx:26-48 | no entry iff the column has no present value; otherwise the name, the count of present values and their summary |
| Analysis.NumericStats | src/components/AnalysisDialog.tsx:26-49 | one entry per numeric column with a present value, in column order, each that column's own statistics; every count is at least 1 |
| Analysis.StatsAreColumnsWithData | src/components/AnalysisDialog.tsx:26-49 | dropping empty entries leaves exactly one entry per numeric column with data, in column order |
| Analysis.CategoryStat | src/components/AnalysisDialog.tsx:52-67 | `unique` is the number of distinct present values, and the top values are those of `TopValues` |
| Analysis.CategoricalStats | src/components/AnalysisDialog.tsx:52 | one entry for each of the first min(3, n) text columns, in order |
| Analysis.MakeOverview | src/components/AnalysisDialog.tsx:15-18 | the row and column counts; the number of selected columns, equal to the column count iff all are selected; the null total, which bounds every column's nulls and is 0 iff no column has any |
| Frequencies.Distinct | src/components/AnalysisDialog.tsx:58 | `[...new Set(values)]` has no repeats, holds exactly the input's values, and lists them in order of first occurrence |
| Frequencies.DistinctCount | src/components/AnalysisDialog.tsx:58 | the number of distinct values equals the size of the value set |
| Frequencies.FirstIndex | src/components/AnalysisDialog.tsx:58 | the position holds the value and no earlier position does |
| Frequencies.Occurrences | src/components/AnalysisDialog.tsx:61 | the count is positive exactly when the value occurs |
| Frequencies.SortByCount | src/components/AnalysisDialog.tsx:62 | the result is a permutation of the input in non-increasing count order |
| Frequencies.SortByCountStable | src/components/AnalysisDialog.tsx:62 | the sort is stable: entries with equal counts keep their input order |
| Frequencies.RankedCounts | src/components/AnalysisDialog.tsx:59-62 | one entry per distinct value, with its exact count, sorted by descending count; values with equal counts keep their order of first occurrence |
| Frequencies.RankedCountsCover | src/components/AnalysisDialog.tsx:59-62 | every value has an entry |
| Frequencies.RankedCountsDistinct | src/components/AnalysisDialog.tsx:59-62 | no value has two entries |
| Frequencies.TopValues | src/components/AnalysisDialog.tsx:59-62 | at most five distinct values with their exact counts, by descending count, ties in order of first occurrence |
| Frequencies.TopValuesSize | src/components/AnalysisDialog.tsx:62 | five entries, or all the distinct values when there are fewer |
| Frequencies.TopValuesMaximal | src/components/AnalysisDialog.tsx:62 | any value left out occurs less often than the fifth one shown, or as often but first occurs after it |
| Training.TrainingColumns | src/utils/mlTraining.ts:46-48 | the columns typed "number" or "integer", in order |
| Training.FeatureValue | src/utils/mlTraining.ts:61-62 | the parsed cell, or 0 when it is NaN; never NaN |
| Training.Samples | src/utils/mlTraining.ts:59-71 | one sample per kept row, each with one feature per feature column, a non-NaN label and no NaN feature |
| Training.SamplesAreKeptRows | src/utils/mlTraining.ts:59-71 | the samples are the kept rows, in order, each mapped to its features and label |
| Training.KeepsIffLabelParses | src/utils/mlTraining.ts:68 | with at least one feature column, a row is kept iff its label parses |
| Training.PrepareData | src/utils/mlTraining.ts:44-75 | error "too few columns" iff fewer than two training columns; on success inputShape is the column count minus one, every sample has that many features, and the samples are those of `Samples` with all but the last training column as features and the last as label |
| Training.NoValidRowsIff | src/utils/mlTraining.ts:73-75 | with two or more training columns, the "no valid rows" error happens iff no row's label parses |
| Training.UploadTagsNeverTrain | src/utils/mlTraining.ts:46-52 | columns typed only "float"/"string" always give the "too few columns" error |
| Training.UploadedDataNeverTrains | src/utils/mlTraining.ts:46-52 | uploaded columns, after any toggles, always give the "too few columns" error |
| Training.TrainTestSplit | src/utils/mlTraining.ts:87-92 | train and test have lengths s and n − s and together are the samples, in order |
| Results.SelectedColumns | src/pages/Results.tsx:38 | no columns without a dataset; otherwise the selected columns, in order |
| Results.TotalSamples | src/pages/Results.tsx:39 | the row count, or 0 without a dataset |
| Results.TrainingSamples | src/pages/Results.tsx:40 | the largest n with 5n ≤ 4·total |
| Results.TestSamples | src/pages/Results.tsx:41 | training plus test samples is the total |
| Results.SplitBounds | src/pages/Results.tsx:40-41 | both counts lie between 0 and the total; each is at least 1 from five samples up |
| Results.ShowCell | src/pages/Results.tsx:305 | a missing value shows the null marker, any other value its text |
| Results.PreviewOf | src/pages/Results.tsx:284-318 | min(8, rows) rows of min(5, selected) cells; "+k más" iff more than five selected, with k = selected − 5; the rows note iff more than eight rows, reporting rows − 8 |
| Results.PreviewAccountsForEverything | src/pages/Results.tsx:284-318 | rows shown plus rows reported add up to the total, and the same holds for columns |
| Results.AfterUploadAllSelected | src/pages/Results.tsx:38-39 | right after an upload every column is selected and the sample count is the number of data lines |
| Results.BeforeUpload | src/pages/Results.tsx:38-41 | with the context as created (no data, no columns) there are no selected columns and 0 samples, 0 for training and 0 for test |

## Left out

- React rendering, navigation, toasts and styling, in every page, ModuleCard and Dashboard: UI only.
- The `FileReader`, the MIME check, `fs` reads and unlinks, multer, the HTTP responses and the Express server: I/O. The route is modelled as a function from file text to records or an error.
- The Supabase insert and its error path (src/routes/upload.js:55-70): a foreign call. The model stops at the objects handed to it (`UploadRoute.InsertRecords`).
- The server's `try`/`catch` "500" path: nothing in the modelled logic throws once the file text is read.
- `console.log` calls: output only.
- Authentication (Auth.tsx): a schema library plus Supabase auth calls.
- TensorFlow work in mlTraining.ts: normalisation, model building, fitting, evaluation and the percentages. This is floating-point numerics in an opaque library.
- Train.tsx: configuration state and a timer-driven simulated run.
- DataContext.tsx: modelled only as the `Dataset.State` record of three optional fields.
- Mock data and fabricated metrics in Clean.tsx and Results.tsx: constants, not behaviour.
- Floating-point display maths, all floating-point rounding: the mean, `toFixed`, and the completeness percentage in the analysis dialog.
- `Number`, `parseFloat`, `parseInt` and `toLowerCase` are not implemented. They are parameters, so nothing is proved about what they return.
- Upload.Load: a file with no non-blank line makes the source throw when it reads the first line. The model requires at least one such line instead.
- The unused `sampleValue` in Upload.tsx:45: dead code.
- Training.TrainTestSplit: takes the split index `Math.floor(n * (1 - testSize))` as any s with 0 ≤ s ≤ n. `testSize` is floating point and not range-checked by the source.
- Results.TrainingSamples: computes `Math.floor(total * 0.8)` as the exact ⌊4·total/5⌋. It does not model the rounding of the double product.
- Analysis.Summarize: when a value is NaN, the order the sort produces is left unstated (`ImplementationDefined`). The comparator is then inconsistent, and the language leaves the order to the engine.
- Analysis.Summarize: for a column holding +Infinity or -Infinity, the comparator also returns NaN (`Infinity - Infinity`), so the language leaves that order to the engine too. The model takes the order engines produce: -Infinity first, then finite values ascending, then +Infinity.
- Objects.Assign: a key named `__proto__` is treated as an ordinary property. In the source, assigning to it hits the prototype setter and creates no own property. So on the server, a file whose only header is `__proto__` gets the "no valid rows" 400, where the model returns the rows. On the client, that column reads the prototype rather than the cell: it is tagged "string", and only empty cells count as nulls.
- Mean: not modelled, since it is a floating-point sum.
- Dataset.CellOf: a name the row does not own reads as a missing cell. In the source, a name inherited from `Object.prototype` (`constructor`, `toString`, `valueOf`, ...) reads the inherited function instead. The analysis dialog would count it as a present value, and the results preview would render it as nothing rather than the null marker. Rows built by the upload page own a property for every header, so uploaded data never reaches this case.
- Helpers.IsNumeric: only `undefined`, `null`, strings and numbers are modelled. The source accepts any value: booleans, arrays and objects go through the language's string and number conversions (so `[7]` is numeric and `true` is not), and a BigInt or a Symbol makes it throw. Nothing in the source calls this helper; the upload page uses its own inline test.

=== FILE: analysis.dfy ===
/**
  The analysis dialog's statistics: the numeric/text column partition, per-column
  min/median/max/count for numeric columns, and distinct-value counts with the five most
  frequent values for the first three text columns.
 */
module Analysis {
  import opened Wrappers
  import opened Seqs
  import opened Js
  import opened Dataset
  import opened NumberOrder
  import opened Frequencies
  import Clean
  import Upload

  /** `c.type === "float" || c.type === "int"`. */
  predicate IsNumericColumn(c: Column)
  {
    c.tag == "float" || c.tag == "int"
  }

  /** `c.type === "string"`. */
  predicate IsStringColumn(c: Column)
  {
    c.tag == "string"
  }

  function NumericColumns(columns: seq<Column>): (r: seq<Column>)
    ensures forall i :: 0 <= i < |r| ==> IsNumericColumn(r[i])
    ensures IsSubseq(r, columns)
  {
    Filter(IsNumericColumn, columns)
  }

  function StringColumns(columns: seq<Column>): (r: seq<Column>)
    ensures forall i :: 0 <= i < |r| ==> IsStringColumn(r[i])
    ensures IsSubseq(r, columns)
  {
    Filter(IsStringColumn, columns)
  }

  /**
    The two groups never share a column, and they cover every column exactly when each tag
    is one of "float", "int" and "string".
   */
  lemma Partition(columns: seq<Column>)
    ensures forall c :: !(IsNumericColumn(c) && IsStringColumn(c))
    ensures |NumericColumns(columns)| + |StringColumns(columns)| <= |columns|
    ensures |NumericColumns(columns)| + |StringColumns(columns)| == |columns| <==>
              forall i :: 0 <= i < |columns| ==> columns[i].tag in {"float", "int", "string"}
  {
    PartitionCounts(columns);
  }

  lemma {:induction false} PartitionCounts(columns: seq<Column>)
    ensures Count(IsNumericColumn, columns) + Count(IsStringColumn, columns) <= |columns|
    ensures Count(IsNumericColumn, columns) + Count(IsStringColumn, columns) == |columns| <==>
              forall i :: 0 <= i < |columns| ==> columns[i].tag in {"float", "int", "string"}
  {
    if |columns| > 0 {
      var rest := columns[1..];
      PartitionCounts(rest);
      assert Count(IsNumericColumn, columns) == (if IsNumericColumn(columns[0]) then 1 else 0) + Count(IsNumericColumn, rest);
      assert Count(IsStringColumn, columns) == (if IsStringColumn(columns[0]) then 1 else 0) + Count(IsStringColumn, rest);
      assert (forall i :: 0 <= i < |columns| ==> columns[i].tag in {"float", "int", "string"}) <==>
             columns[0].tag in {"float", "int", "string"} && forall i :: 0 <= i < |rest| ==> rest[i].tag in {"float", "int", "string"} by {
        assert forall i :: 1 <= i < |columns| ==> columns[i] == rest[i - 1];
      }
    }
  }

  /** Every column the upload page profiles lands in exactly one of the two groups. */
  lemma UploadedColumnsPartition(js: Builtins, headers: seq<string>, rows: seq<Row>)
    ensures var columns := Upload.ProfileColumns(js, headers, rows);
            |NumericColumns(columns)| + |StringColumns(columns)| == |columns|
  {
    Partition(Upload.ProfileColumns(js, headers, rows));
  }

  /** `val !== null && val !== undefined && val !== ""`: the complement of the upload page's null test. */
  predicate IsPresent(c: Cell)
  {
    !IsFalsyCell(c)
  }

  /** Each string as a present cell. */
  function AsCells(values: seq<string>): (cells: seq<Cell>)
    ensures |cells| == |values|
    ensures forall i :: 0 <= i < |values| ==> cells[i] == Some(values[i])
  {
    seq(|values|, i requires 0 <= i < |values| => Some(values[i]))
  }

  /**
    `data.map(row => row[name]).filter(...)`: the column's present values, in row order --
    a subsequence of the column's cells holding every present one.
   */
  function PresentValues(rows: seq<Row>, name: string): (values: seq<string>)
    ensures |values| == Count(IsPresent, ColumnCells(rows, name))
    ensures IsSubseq(AsCells(values), ColumnCells(rows, name))
    ensures forall i :: 0 <= i < |values| ==> values[i] != ""
    ensures forall r :: 0 <= r < |rows| && IsPresent(CellOf(rows[r], name)) ==> CellOf(rows[r], name).value in values
  {
    var cells := ColumnCells(rows, name);
    var present := Filter(IsPresent, cells);
    var values := seq(|present|, i requires 0 <= i < |present| => present[i].value);
    assert AsCells(values) == present;
    forall r | 0 <= r < |rows| && IsPresent(CellOf(rows[r], name)) ensures CellOf(rows[r], name).value in values {
      var k :| 0 <= k < |present| && present[k] == cells[r];
      assert values[k] == CellOf(rows[r], name).value;
    }
    values
  }

  /** Every present value is the cell of some row. */
  lemma PresentValuesFromRows(rows: seq<Row>, name: string, i: nat) returns (r: nat)
    requires i < |PresentValues(rows, name)|
    ensures r < |rows| && CellOf(rows[r], name) == Some(PresentValues(rows, name)[i])
  {
    var values := PresentValues(rows, name);
    var cells := ColumnCells(rows, name);
    var present := Filter(IsPresent, cells);
    FilterUnique(IsPresent, AsCells(values), cells);
    assert AsCells(values)[i] in cells;
    r :| 0 <= r < |cells| && cells[r] == AsCells(values)[i];
  }

  /** On the upload page's rows the dialog's `count` is the row count minus the column's nulls. */
  lemma PresentPlusNulls(rows: seq<Row>, name: string)
    requires Upload.NoEmptyCells(rows)
    ensures |PresentValues(rows, name)| + Upload.NullCells(rows, name) == |rows|
  {
    CountComplement(IsPresent, IsNullCell, ColumnCells(rows, name));
  }

  /** `.map(val => Number(val))`. */
  function ToNumbers(js: Builtins, values: seq<string>): (nums: seq<Number>)
    ensures |nums| == |values|
    ensures forall i :: 0 <= i < |values| ==> nums[i] == js.number(values[i])
  {
    seq(|values|, i requires 0 <= i < |values| => js.number(values[i]))
  }

  /**
    min, median and max of the sorted values; when a value is NaN the comparator
    `a - b` is inconsistent and the sort order is implementation-defined.
   */
  datatype Summary = Ordered(min: Number, median: Number, max: Number) | ImplementationDefined

  datatype NumericStat = NumericStat(name: string, count: nat, summary: Summary)

  /** `sortedValues[0]`, `sortedValues[Math.floor(length / 2)]`, `sortedValues[length - 1]`. */
  function Summarize(nums: seq<Number>): (s: Summary)
    requires |nums| > 0
    ensures s.Ordered? <==> NoNaN(nums)
  {
    if NoNaN(nums) then
      var sorted := Sort(nums);
      Ordered(sorted[0], sorted[|sorted| / 2], sorted[|sorted| - 1])
    else
      ImplementationDefined
  }

  /** Sorting keeps exactly the same elements. */
  lemma SortSameElements(nums: seq<Number>)
    requires NoNaN(nums)
    ensures forall i :: 0 <= i < |Sort(nums)| ==> Sort(nums)[i] in nums
    ensures forall i :: 0 <= i < |nums| ==> nums[i] in Sort(nums)
  {
    var sorted := Sort(nums);
    forall i | 0 <= i < |sorted| ensures sorted[i] in nums {
      assert sorted[i] in multiset(sorted);
    }
    forall i | 0 <= i < |nums| ensures nums[i] in sorted {
      assert nums[i] in multiset(nums);
    }
  }

  /** min, median and max are values of the column, and min and max bound every value. */
  lemma SummaryBounds(nums: seq<Number>)
    requires |nums| > 0 && NoNaN(nums)
    ensures var s := Summarize(nums);
            && s.Ordered?
            && s.min in nums && s.median in nums && s.max in nums
            && (forall i :: 0 <= i < |nums| ==> LessEq(s.min, nums[i]) && LessEq(nums[i], s.max))
            && LessEq(s.min, s.median) && LessEq(s.median, s.max)
  {
    var sorted := Sort(nums);
    SortSameElements(nums);
    forall i | 0 <= i < |nums| ensures LessEq(sorted[0], nums[i]) && LessEq(nums[i], sorted[|sorted| - 1]) {
      var j :| 0 <= j < |sorted| && sorted[j] == nums[i];
      assert LessEq(sorted[0], sorted[j]);
      assert LessEq(sorted[j], sorted[|sorted| - 1]);
    }
  }

  /** In an ascending sequence at most `k` elements lie strictly below `s[k]`. */
  lemma {:induction false} BelowRank(s: seq<Number>, k: nat)
    requires NoNaN(s) && Ascending(s) && k < |s|
    ensures Count((x: Number) => Less(x, s[k]), s) <= k
  {
    var below := (x: Number) => Less(x, s[k]);
    assert s == s[..k] + s[k..];
    CountAppend(below, s[..k], s[k..]);
    forall i | 0 <= i < |s[k..]| ensures !below(s[k..][i]) {
      assert s[k..][i] == s[k + i];
      assert LessEq(s[k], s[k + i]);
    }
    CountExtremes(below, s[k..]);
  }

  /** In an ascending sequence more than `k` elements lie at or below `s[k]`. */
  lemma {:induction false} AtMostRank(s: seq<Number>, k: nat)
    requires NoNaN(s) && Ascending(s) && k < |s|
    ensures Count((x: Number) => LessEq(x, s[k]), s) > k
  {
    var atMost := (x: Number) => LessEq(x, s[k]);
    assert s == s[..k + 1] + s[k + 1..];
    CountAppend(atMost, s[..k + 1], s[k + 1..]);
    var head := s[..k + 1];
    forall i | 0 <= i < |head| ensures LessEq(head[i], s[k]) {
      assert head[i] == s[i];
      assert i == k || LessEq(s[i], s[k]);
    }
    CountExtremes(atMost, head);
  }

  /**
    The median has at most ⌊n/2⌋ values strictly below it and more than ⌊n/2⌋ values at or
    below it.
   */
  lemma MedianRank(nums: seq<Number>)
    requires |nums| > 0 && NoNaN(nums)
    ensures var m := Summarize(nums).median;
            && Count((x: Number) => Less(x, m), nums) <= |nums| / 2
            && Count((x: Number) => LessEq(x, m), nums) > |nums| / 2
  {
    var sorted := Sort(nums);
    var k := |sorted| / 2;
    var m := sorted[k];
    CountPerm((x: Number) => Less(x, m), nums, sorted);
    CountPerm((x: Number) => LessEq(x, m), nums, sorted);
    BelowRank(sorted, k);
    AtMostRank(sorted, k);
  }

  /** The entry for one numeric column, or none when it has no present value. */
  function ColumnStat(js: Builtins, rows: seq<Row>, c: Column): (r: Option<NumericStat>)
    ensures r.None? <==> |PresentValues(rows, c.name)| == 0
    ensures r.Some? ==>
              && r.value.name == c.name
              && r.value.count == |PresentValues(rows, c.name)|
              && r.value.summary == Summarize(ToNumbers(js, PresentValues(rows, c.name)))
  {
    var values := PresentValues(rows, c.name);
    if |values| == 0 then None
    else Some(NumericStat(c.name, |values|, Summarize(ToNumbers(js, values))))
  }

  /**
    `numericColumns.map(...).filter(Boolean)`: one entry per numeric column with data, in
    column order, each the column's own statistics.
   */
  function NumericStats(js: Builtins, rows: seq<Row>, columns: seq<Column>): (stats: seq<NumericStat>)
    ensures |stats| <= |NumericColumns(columns)|
    ensures forall i :: 0 <= i < |stats| ==> stats[i].count >= 1
    ensures var kept := Filter(WithData(rows), NumericColumns(columns));
            && |stats| == |kept|
            && forall i :: 0 <= i < |stats| ==> Some(stats[i]) == ColumnStat(js, rows, kept[i])
  {
    StatsAreColumnsWithData(js, rows, NumericColumns(columns));
    StatsOf(js, rows, NumericColumns(columns))
  }

  function StatsOf(js: Builtins, rows: seq<Row>, numeric: seq<Column>): (stats: seq<NumericStat>)
    ensures |stats| <= |numeric|
    ensures forall i :: 0 <= i < |stats| ==> stats[i].count >= 1
  {
    if |numeric| == 0 then []
    else
      match ColumnStat(js, rows, numeric[0])
      case None => StatsOf(js, rows, numeric[1..])
      case Some(s) => [s] + StatsOf(js, rows, numeric[1..])
  }

  /** The column has at least one present value. */
  predicate HasValues(rows: seq<Row>, c: Column)
  {
    |PresentValues(rows, c.name)| > 0
  }

  /** `HasValues` as a filter test. */
  function WithData(rows: seq<Row>): Column -> bool
  {
    c => HasValues(rows, c)
  }

  /**
    Dropping the null entries leaves exactly one entry per column with data, in column
    order: the entries are the `ColumnStat` of `Filter(HasValues, ...)`.
   */
  lemma {:induction false} StatsAreColumnsWithData(js: Builtins, rows: seq<Row>, numeric: seq<Column>)
    ensures var kept := Filter(WithData(rows), numeric);
            var stats := StatsOf(js, rows, numeric);
            && |stats| == |kept|
            && forall i :: 0 <= i < |stats| ==> Some(stats[i]) == ColumnStat(js, rows, kept[i])
  {
    if |numeric| > 0 {
      var p := WithData(rows);
      StatsAreColumnsWithData(js, rows, numeric[1..]);
      var rest := StatsOf(js, rows, numeric[1..]);
      var keptRest := Filter(p, numeric[1..]);
      if HasValues(rows, numeric[0]) {
        var s := ColumnStat(js, rows, numeric[0]).value;
        assert StatsOf(js, rows, numeric) == [s] + rest;
        assert Filter(p, numeric) == [numeric[0]] + keptRest;
      } else {
        assert StatsOf(js, rows, numeric) == rest;
        assert Filter(p, numeric) == keptRest;
      }
    }
  }

  datatype CategoricalStat = CategoricalStat(name: string, unique: nat, topValues: seq<ValueCount>)

  /** The entry for one text column. */
  function CategoryStat(rows: seq<Row>, c: Column): (r: CategoricalStat)
    ensures r.name == c.name
    ensures r.unique == |set v | v in PresentValues(rows, c.name)|
    ensures r.topValues == TopValues(PresentValues(rows, c.name))
  {
    var values := PresentValues(rows, c.name);
    DistinctCount(values);
    CategoricalStat(c.name, |Distinct(values)|, TopValues(values))
  }

  /** `stringColumns.slice(0, 3).map(...)`: the first three text columns only. */
  function CategoricalStats(rows: seq<Row>, columns: seq<Column>): (stats: seq<CategoricalStat>)
    ensures var text := StringColumns(columns);
            && |stats| == Min(|text|, 3)
            && forall i :: 0 <= i < |stats| ==> stats[i] == CategoryStat(rows, text[i])
  {
    var text := StringColumns(columns);
    var first := text[..Min(|text|, 3)];
    seq(|first|, i requires 0 <= i < |first| => CategoryStat(rows, first[i]))
  }

  /** The dialog's header figures. */
  datatype Overview = Overview(totalRows: nat, totalColumns: nat, selectedColumns: nat, totalNulls: nat)

  function MakeOverview(rows: seq<Row>, columns: seq<Column>): (o: Overview)
    ensures o.totalRows == |rows| && o.totalColumns == |columns|
    ensures o.selectedColumns <= o.totalColumns
    ensures o.selectedColumns == Count(IsSelected, columns)
    ensures o.selectedColumns == o.totalColumns <==> forall i :: 0 <= i < |columns| ==> columns[i].selected
    ensures o.totalNulls == Clean.TotalNulls(columns)
    ensures forall i :: 0 <= i < |columns| ==> columns[i].nulls <= o.totalNulls
    ensures o.totalNulls == 0 <==> forall i :: 0 <= i < |columns| ==> columns[i].nulls == 0
  {
    Overview(|rows|, |columns|, Clean.SelectedCount(columns), Clean.TotalNulls(columns))
  }
}

=== FILE: clean.dfy ===
/** The cleaning page's column selection: toggling by id and the two header statistics. */
module Clean {
  import opened Seqs
  import opened Dataset

  /** `{ ...col, selected: !col.selected }`. */
  function Flip(c: Column): Column
  {
    c.(selected := !c.selected)
  }

  /**
    `columns.map(col => col.id === id ? { ...col, selected: !col.selected } : col)`: the
    columns with that id change their selection and nothing else changes.
   */
  function ToggleColumn(columns: seq<Column>, id: int): (r: seq<Column>)
    ensures |r| == |columns|
    ensures forall i :: 0 <= i < |r| ==>
              && r[i].id == columns[i].id && r[i].name == columns[i].name
              && r[i].tag == columns[i].tag && r[i].nulls == columns[i].nulls
              && (r[i].selected <==> (columns[i].selected != (columns[i].id == id)))
  {
    if |columns| == 0 then []
    else [if columns[0].id == id then Flip(columns[0]) else columns[0]] + ToggleColumn(columns[1..], id)
  }

  /** A series of clicks, one toggle per id in `ids`: only selections ever change. */
  function ToggleAll(columns: seq<Column>, ids: seq<int>): (r: seq<Column>)
    ensures |r| == |columns|
    ensures forall i :: 0 <= i < |r| ==>
              && r[i].id == columns[i].id && r[i].name == columns[i].name
              && r[i].tag == columns[i].tag && r[i].nulls == columns[i].nulls
    decreases |ids|
  {
    if |ids| == 0 then columns else ToggleAll(ToggleColumn(columns, ids[0]), ids[1..])
  }

  /** Toggling the same id twice restores the list. */
  lemma ToggleTwice(columns: seq<Column>, id: int)
    ensures ToggleColumn(ToggleColumn(columns, id), id) == columns
  {
    var r := ToggleColumn(ToggleColumn(columns, id), id);
    assert forall i :: 0 <= i < |r| ==> r[i] == columns[i];
  }

  /** Toggling an id no column carries changes nothing. */
  lemma ToggleAbsent(columns: seq<Column>, id: int)
    requires forall i :: 0 <= i < |columns| ==> columns[i].id != id
    ensures ToggleColumn(columns, id) == columns
  {
    var r := ToggleColumn(columns, id);
    assert forall i :: 0 <= i < |r| ==> r[i] == columns[i];
  }

  /** `columns.filter(c => c.selected).length`. */
  function SelectedCount(columns: seq<Column>): (n: nat)
    ensures n <= |columns|
    ensures n == 0 <==> forall i :: 0 <= i < |columns| ==> !columns[i].selected
    ensures n == |columns| <==> forall i :: 0 <= i < |columns| ==> columns[i].selected
  {
    CountExtremes(IsSelected, columns);
    Count(IsSelected, columns)
  }

  /** `columns.reduce((sum, col) => sum + col.nulls, 0)`. */
  function TotalNulls(columns: seq<Column>): (n: nat)
    ensures forall i :: 0 <= i < |columns| ==> columns[i].nulls <= n
    ensures n == 0 <==> forall i :: 0 <= i < |columns| ==> columns[i].nulls == 0
  {
    if |columns| == 0 then 0
    else
      var rest := TotalNulls(columns[1..]);
      assert forall i :: 1 <= i < |columns| ==> columns[i] == columns[1..][i - 1];
      columns[0].nulls + rest
  }

  /** `columns.filter(c => c.selected)`: the header and cells the preview table shows. */
  function PreviewColumns(columns: seq<Column>): (shown: seq<Column>)
    ensures |shown| == SelectedCount(columns)
    ensures forall i :: 0 <= i < |shown| ==> shown[i].selected
    ensures IsSubseq(shown, columns)
    ensures forall i :: 0 <= i < |columns| && columns[i].selected ==> columns[i] in shown
  {
    Filter(IsSelected, columns)
  }

  /** The preview is the only in-order choice of exactly the selected columns. */
  lemma PreviewIsUnique(columns: seq<Column>, shown: seq<Column>)
    requires IsSubseq(shown, columns)
    requires forall i :: 0 <= i < |shown| ==> shown[i].selected
    requires |shown| == SelectedCount(columns)
    ensures shown == PreviewColumns(columns)
  {
    FilterUnique(IsSelected, shown, columns);
  }

  /** Toggling leaves the null total unchanged. */
  lemma {:induction false} ToggleKeepsTotalNulls(columns: seq<Column>, id: int)
    ensures TotalNulls(ToggleColumn(columns, id)) == TotalNulls(columns)
  {
    if |columns| > 0 {
      ToggleKeepsTotalNulls(columns[1..], id);
    }
  }

  /**
    When exactly one column carries the id, toggling it moves the selected count by one:
    down if it was selected, up otherwise.
   */
  lemma {:induction false} ToggleSelectedCount(columns: seq<Column>, id: int, k: nat)
    requires k < |columns| && columns[k].id == id
    requires forall j :: 0 <= j < |columns| && j != k ==> columns[j].id != id
    ensures SelectedCount(ToggleColumn(columns, id)) ==
              if columns[k].selected then SelectedCount(columns) - 1 else SelectedCount(columns) + 1
  {
    var r := ToggleColumn(columns, id);
    assert r[1..] == ToggleColumn(columns[1..], id);
    if k == 0 {
      ToggleAbsent(columns[1..], id);
    } else {
      ToggleSelectedCount(columns[1..], id, k - 1);
    }
  }
}

=== FILE: dataset.dfy ===
/** The shared data context: parsed rows, their column profiles and the file name. */
module Dataset {
  import opened Wrappers

  /** A cell of a parsed row: a non-empty string, or `null`. */
  type Cell = Option<string>

  /** A parsed row: header name to cell. */
  type Row = map<string, Cell>

  /**
    A column profile. Its `type` (here `tag`) is kept as the raw tag string because the pages disagree on the
    vocabulary ("float"/"string", "float"/"int", "number"/"integer").
   */
  datatype Column = Column(id: int, name: string, tag: string, selected: bool, nulls: nat)

  /**
    `row[name]` for a name the row owns; any other name reads as `undefined`, which every reader
    treats like `null`. Names inherited from `Object.prototype` are not modelled: rows built from
    a header line own every header.
   */
  function CellOf(row: Row, name: string): Cell
  {
    if name in row then row[name] else None
  }

  /** `rows.map(row => row[name])`: the column's cell in each row, in row order. */
  function ColumnCells(rows: seq<Row>, name: string): (cells: seq<Cell>)
    ensures |cells| == |rows|
    ensures forall r :: 0 <= r < |rows| ==> cells[r] == CellOf(rows[r], name)
  {
    seq(|rows|, r requires 0 <= r < |rows| => CellOf(rows[r], name))
  }

  /** A falsy cell: `null`, `undefined` or `""`. */
  predicate IsFalsyCell(c: Cell)
  {
    c.None? || c.value == ""
  }

  /** A cell that is `null` or `undefined`. */
  predicate IsNullCell(c: Cell)
  {
    c.None?
  }

  /** The context's three nullable fields. */
  datatype State = State(csvData: Option<seq<Row>>, csvColumns: Option<seq<Column>>, fileName: Option<string>)

  /** The context as created, before any upload. */
  const Empty := State(None, None, None)

  /** `columns.filter(c => c.selected)`. */
  predicate IsSelected(c: Column)
  {
    c.selected
  }
}

=== FILE: frequencies.dfy ===
/**
  Value frequencies of a text column: distinct values in first-seen order
  (`[...new Set(values)]`), per-value counts, and the count-descending stable sort.
 */
module Frequencies {
  import opened Seqs


  /** No value occurs twice. */
  predicate NoDuplicates(s: seq<string>)
  {
    forall i, j :: 0 <= i < j < |s| ==> s[i] != s[j]
  }

  /** The position where `v` first occurs in `values`. */
  function FirstIndex(values: seq<string>, v: string): (k: nat)
    requires v in values
    ensures k < |values| && values[k] == v && v !in values[..k]
  {
    if values[0] == v then 0
    else
      var k := 1 + FirstIndex(values[1..], v);
      assert values[..k] == [values[0]] + values[1..][..k - 1];
      k
  }

  /** A position holding `v` with no earlier `v` is the first occurrence. */
  lemma FirstIndexUnique(values: seq<string>, v: string, k: nat)
    requires k < |values| && values[k] == v && v !in values[..k]
    ensures FirstIndex(values, v) == k
  {
    var f := FirstIndex(values, v);
    forall i | 0 <= i < k ensures values[i] != v {
      assert values[..k][i] == values[i];
    }
    forall i | 0 <= i < f ensures values[i] != v {
      assert values[..f][i] == values[i];
    }
  }

  /** Cutting off a tail keeps the first occurrence of a value seen before the cut. */
  lemma FirstIndexPrefix(values: seq<string>, n: nat, x: string)
    requires n <= |values| && x in values[..n]
    ensures FirstIndex(values, x) == FirstIndex(values[..n], x) < n
  {
    var k := FirstIndex(values[..n], x);
    assert values[..n][..k] == values[..k];
    FirstIndexUnique(values, x, k);
  }

  /** `[...new Set(values)]`: each value once, in order of first occurrence. */
  function Distinct(values: seq<string>): (d: seq<string>)
    ensures NoDuplicates(d)
    ensures forall x :: x in d <==> x in values
    ensures |d| <= |values|
    ensures forall i, j :: 0 <= i < j < |d| ==> FirstIndex(values, d[i]) < FirstIndex(values, d[j])
  {
    if |values| == 0 then []
    else
      var n := |values| - 1;
      var d := Distinct(values[..n]);
      assert values == values[..n] + [values[n]];
      forall i | 0 <= i < |d| ensures FirstIndex(values, d[i]) == FirstIndex(values[..n], d[i]) < n {
        FirstIndexPrefix(values, n, d[i]);
      }
      if values[n] in d then d
      else
        FirstIndexUnique(values, values[n], n);
        var r := d + [values[n]];
        assert forall i :: 0 <= i < |d| ==> r[i] == d[i];
        r
  }

  /** A duplicate-free sequence has as many elements as its set. */
  lemma {:induction false} NoDuplicatesCard(s: seq<string>)
    requires NoDuplicates(s)
    ensures |set x | x in s| == |s|
  {
    if |s| > 0 {
      var t := s[1..];
      NoDuplicatesCard(t);
      assert (set x | x in s) == (set x | x in t) + {s[0]};
      assert s[0] !in t;
    }
  }

  /** `unique` is the number of different values. */
  lemma DistinctCount(values: seq<string>)
    ensures |Distinct(values)| == |set x | x in values|
  {
    var d := Distinct(values);
    NoDuplicatesCard(d);
    assert (set x | x in d) == (set x | x in values);
  }

  /** `v => v === val`. */
  function EqualTo(val: string): string -> bool
  {
    v => v == val
  }

  /** `values.filter(v => v === val).length`. */
  function Occurrences(values: seq<string>, v: string): (n: nat)
    ensures n <= |values|
    ensures n > 0 <==> v in values
  {
    CountExtremes(EqualTo(v), values);
    Count(EqualTo(v), values)
  }

  /** `{ value, count }`. */
  datatype ValueCount = ValueCount(value: string, count: nat)

  /** Counts never increase along the list. */
  predicate Descending(s: seq<ValueCount>)
  {
    forall i, j :: 0 <= i < j < |s| ==> s[i].count >= s[j].count
  }

  /** The index of the first entry whose count is not larger than `x`'s. */
  function InsertPos(x: ValueCount, s: seq<ValueCount>): (k: nat)
    ensures k <= |s|
    ensures forall j :: 0 <= j < k ==> s[j].count > x.count
    ensures k < |s| ==> s[k].count <= x.count
  {
    if |s| == 0 || x.count >= s[0].count then 0 else 1 + InsertPos(x, s[1..])
  }

  /** Place `x` in front of the first entry whose count is not larger (stable for ties). */
  function InsertByCount(x: ValueCount, s: seq<ValueCount>): (r: seq<ValueCount>)
    requires Descending(s)
    ensures |r| == |s| + 1
    ensures multiset(r) == multiset(s) + multiset{x}
    ensures Descending(r)
  {
    var k := InsertPos(x, s);
    InsertKeepsOrder(x, s, k);
    assert s == s[..k] + s[k..];
    s[..k] + [x] + s[k..]
  }

  lemma InsertKeepsOrder(x: ValueCount, s: seq<ValueCount>, k: nat)
    requires Descending(s) && k <= |s|
    requires forall j :: 0 <= j < k ==> s[j].count > x.count
    requires k < |s| ==> s[k].count <= x.count
    ensures Descending(s[..k] + [x] + s[k..])
  {
    var r := s[..k] + [x] + s[k..];
    forall i, j | 0 <= i < j < |r| ensures r[i].count >= r[j].count {
      var si := if i < k then s[i] else if i == k then x else s[i - 1];
      var sj := if j < k then s[j] else if j == k then x else s[j - 1];
      assert r[i] == si && r[j] == sj;
      if j > k && i < k {
        assert s[i].count >= s[j - 1].count;
      } else if j > k && i == k {
        assert s[k].count >= s[j - 1].count;
      }
    }
  }

  /** `.sort((a, b) => b.count - a.count)`, which is stable. */
  function SortByCount(s: seq<ValueCount>): (r: seq<ValueCount>)
    ensures |r| == |s|
    ensures multiset(r) == multiset(s)
    ensures Descending(r)
  {
    if |s| == 0 then []
    else
      assert s == [s[0]] + s[1..];
      InsertByCount(s[0], SortByCount(s[1..]))
  }

  /** Entries with equal counts appear in increasing `rank`. */
  predicate TiesOrdered(s: seq<ValueCount>, rank: ValueCount -> int)
  {
    forall i, j :: 0 <= i < j < |s| && s[i].count == s[j].count ==> rank(s[i]) < rank(s[j])
  }

  /** Every entry comes before the later ones in `rank`. */
  predicate RankIncreasing(s: seq<ValueCount>, rank: ValueCount -> int)
  {
    forall i, j :: 0 <= i < j < |s| ==> rank(s[i]) < rank(s[j])
  }

  /** Inserting an entry that ranks before all others keeps ties in rank order. */
  lemma InsertKeepsTies(x: ValueCount, t: seq<ValueCount>, rank: ValueCount -> int)
    requires Descending(t) && TiesOrdered(t, rank)
    requires forall e :: e in t ==> rank(x) < rank(e)
    ensures TiesOrdered(InsertByCount(x, t), rank)
  {
    var k := InsertPos(x, t);
    assert InsertByCount(x, t) == t[..k] + [x] + t[k..];
    InsertTiesAt(x, t, k, rank);
  }

  /** `InsertKeepsTies` at a given insertion point. */
  lemma InsertTiesAt(x: ValueCount, t: seq<ValueCount>, k: nat, rank: ValueCount -> int)
    requires TiesOrdered(t, rank) && k <= |t|
    requires forall j :: 0 <= j < k ==> t[j].count > x.count
    requires forall e :: e in t ==> rank(x) < rank(e)
    ensures TiesOrdered(t[..k] + [x] + t[k..], rank)
  {
    var r := t[..k] + [x] + t[k..];
    forall i, j | 0 <= i < j < |r| && r[i].count == r[j].count ensures rank(r[i]) < rank(r[j]) {
      var ti := if i < k then t[i] else if i == k then x else t[i - 1];
      var tj := if j < k then t[j] else if j == k then x else t[j - 1];
      assert r[i] == ti && r[j] == tj;
      if i == k {
        assert t[j - 1] in t;
      }
    }
  }

  /**
    The sort is stable: when the input lists its entries in increasing `rank`, entries with
    equal counts come out in increasing `rank` too.
   */
  lemma {:induction false} SortByCountStable(s: seq<ValueCount>, rank: ValueCount -> int)
    requires RankIncreasing(s, rank)
    ensures TiesOrdered(SortByCount(s), rank)
  {
    if |s| > 0 {
      var t := SortByCount(s[1..]);
      SortByCountStable(s[1..], rank);
      forall e | e in t ensures rank(s[0]) < rank(e) {
        assert e in multiset(s[1..]);
        var j :| 0 <= j < |s[1..]| && s[1..][j] == e;
        assert s[1..][j] == s[j + 1];
      }
      InsertKeepsTies(s[0], t, rank);
    }
  }

  /** `uniqueValues.map(val => ({ value: val, count: ... }))`. */
  function CountEach(values: seq<string>, distinct: seq<string>): (r: seq<ValueCount>)
    ensures |r| == |distinct|
    ensures forall i :: 0 <= i < |r| ==> r[i] == ValueCount(distinct[i], Occurrences(values, distinct[i]))
  {
    seq(|distinct|, i requires 0 <= i < |distinct| => ValueCount(distinct[i], Occurrences(values, distinct[i])))
  }

  /** Where the entry's value first occurs in `values`; values that never occur rank last. */
  function FirstSeen(values: seq<string>, e: ValueCount): int
  {
    if e.value in values then FirstIndex(values, e.value) else |values|
  }

  /** Ranks entries by where their values first occur in `values`. */
  function FirstOrder(values: seq<string>): ValueCount -> int
  {
    e => FirstSeen(values, e)
  }

  /** The counts of the distinct values list the values in order of first occurrence. */
  lemma CountsInFirstOrder(values: seq<string>)
    ensures RankIncreasing(CountEach(values, Distinct(values)), FirstOrder(values))
  {
    var d := Distinct(values);
    var counts := CountEach(values, d);
    forall i, j | 0 <= i < j < |counts| ensures FirstOrder(values)(counts[i]) < FirstOrder(values)(counts[j]) {
      assert counts[i].value == d[i] && counts[j].value == d[j];
    }
  }

  /** Ties ordered by `FirstOrder` are ties ordered by first occurrence. */
  lemma TiesInFirstOrder(values: seq<string>, s: seq<ValueCount>)
    requires TiesOrdered(s, FirstOrder(values)) && ExactEntries(values, s)
    ensures forall i, j :: 0 <= i < j < |s| && s[i].count == s[j].count ==>
              FirstIndex(values, s[i].value) < FirstIndex(values, s[j].value)
  {
    forall i, j | 0 <= i < j < |s| && s[i].count == s[j].count
      ensures FirstIndex(values, s[i].value) < FirstIndex(values, s[j].value)
    {
      assert FirstOrder(values)(s[i]) < FirstOrder(values)(s[j]);
    }
  }

  /**
    The per-value counts of `values`, most frequent first; values with equal counts keep the
    order in which they first occur.
   */
  function RankedCounts(values: seq<string>): (sorted: seq<ValueCount>)
    ensures |sorted| == |set x | x in values|
    ensures Descending(sorted)
    ensures forall i :: 0 <= i < |sorted| ==> sorted[i].value in values && sorted[i].count == Occurrences(values, sorted[i].value)
    ensures forall i, j :: 0 <= i < j < |sorted| && sorted[i].count == sorted[j].count ==>
              FirstIndex(values, sorted[i].value) < FirstIndex(values, sorted[j].value)
  {
    var sorted := SortByCount(CountEach(values, Distinct(values)));
    DistinctCount(values);
    RankedEntries(values);
    RankedTies(values);
    TiesInFirstOrder(values, sorted);
    sorted
  }

  /** Every entry is a value of `values` with its exact count. */
  predicate ExactEntries(values: seq<string>, s: seq<ValueCount>)
  {
    forall i :: 0 <= i < |s| ==> s[i].value in values && s[i].count == Occurrences(values, s[i].value)
  }

  /** Each sorted entry is a value of `values` with its exact count. */
  lemma RankedEntries(values: seq<string>)
    ensures ExactEntries(values, SortByCount(CountEach(values, Distinct(values))))
  {
    var counts := CountEach(values, Distinct(values));
    var sorted := SortByCount(counts);
    forall i | 0 <= i < |sorted| ensures sorted[i] in counts {
      assert sorted[i] in multiset(sorted);
    }
  }

  /** Sorted entries with equal counts keep the order of first occurrence. */
  lemma RankedTies(values: seq<string>)
    ensures TiesOrdered(SortByCount(CountEach(values, Distinct(values))), FirstOrder(values))
  {
    var counts := CountEach(values, Distinct(values));
    var sorted := SortByCount(counts);
    CountsInFirstOrder(values);
    SortByCountStable(counts, FirstOrder(values));
  }

  /** Every value has an entry in the ranking. */
  lemma RankedCountsCover(values: seq<string>, v: string)
    requires v in values
    ensures exists j :: 0 <= j < |RankedCounts(values)| && RankedCounts(values)[j].value == v
  {
    var d := Distinct(values);
    var counts := CountEach(values, d);
    var sorted := RankedCounts(values);
    assert sorted == SortByCount(counts);
    var i :| 0 <= i < |d| && d[i] == v;
    assert counts[i] in multiset(sorted);
    assert counts[i] in sorted;
  }

  /** No value has two entries in the ranking: equal values would be a tie with equal first occurrences. */
  lemma RankedCountsDistinct(values: seq<string>)
    ensures forall i, j :: 0 <= i < j < |RankedCounts(values)| ==> RankedCounts(values)[i].value != RankedCounts(values)[j].value
  {
  }

  /**
    `valueCounts.slice(0, 5)`: at most five entries, one per value, with exact counts in
    non-increasing order and ties in order of first occurrence.
   */
  function TopValues(values: seq<string>): (top: seq<ValueCount>)
    ensures |top| <= 5
    ensures Descending(top)
    ensures forall i :: 0 <= i < |top| ==> top[i].value in values && top[i].count == Occurrences(values, top[i].value)
    ensures forall i, j :: 0 <= i < j < |top| ==> top[i].value != top[j].value
    ensures forall i, j :: 0 <= i < j < |top| && top[i].count == top[j].count ==>
              FirstIndex(values, top[i].value) < FirstIndex(values, top[j].value)
  {
    var sorted := RankedCounts(values);
    RankedCountsDistinct(values);
    var top := sorted[..Min(|sorted|, 5)];
    assert forall i :: 0 <= i < |top| ==> top[i] == sorted[i];
    top
  }

  /** Five entries are shown, or one per value when there are fewer than five values. */
  lemma TopValuesSize(values: seq<string>)
    ensures |TopValues(values)| == Min(|set x | x in values|, 5)
  {
  }

  /**
    Every value is shown, or occurs less often than the last of the five values shown, or
    as often but first occurs after it.
   */
  lemma TopValuesMaximal(values: seq<string>, v: string)
    requires v in values
    ensures var top := TopValues(values);
            || (exists i :: 0 <= i < |top| && top[i].value == v)
            || (|top| == 5 && Occurrences(values, v) < top[4].count)
            || (|top| == 5 && Occurrences(values, v) == top[4].count &&
                FirstIndex(values, top[4].value) < FirstIndex(values, v))
  {
    var sorted := RankedCounts(values);
    RankedCountsCover(values, v);
    var j :| 0 <= j < |sorted| && sorted[j].value == v;
    var top := TopValues(values);
    assert top == sorted[..|top|];
    if j < |top| {
      assert top[j].value == v;
    } else {
      assert top[4] == sorted[4];
      assert sorted[4].count >= sorted[j].count;
    }
  }
}

=== FILE: helpers.dfy ===
/** The shared numeric test of the utilities file. */
module Helpers {
  import opened Js

  /**
    `isNumeric(value)`: false for `null`, `undefined` and `""`; otherwise `parseFloat` must
    give a number and the value's `Number` conversion must be finite.
   */
  function IsNumeric(js: Builtins, value: Value): (r: bool)
    ensures value == Null || value == Undefined || value == Str("") ==> !r
    ensures value.Str? && value.s != "" ==>
              (r <==> js.parseFloat(value.s) != NaN && js.number(value.s).Finite?)
    ensures value.Num? ==> (r <==> value.n.Finite?)
  {
    if value == Null || value == Undefined || value == Str("") then false
    else ParseFloatValue(js, value) != NaN && ToNumber(js, value).Finite?
  }
}

=== FILE: js.dfy ===
/**
  JavaScript values and the built-in conversions the source calls. The parsers themselves
  (`Number`, `parseFloat`, `parseInt`, `toLowerCase`) are not re-implemented: every operation
  that needs one receives it through a `Builtins` record, so every statement of the model
  holds for whatever those functions return.
 */
module Js {
  import opened Wrappers

  /** An IEEE double as far as the source distinguishes it: a finite value, an infinity or NaN. */
  datatype Number = Finite(value: real) | PosInf | NegInf | NaN

  /** A dynamically typed JavaScript value as it can occur in a parsed row. */
  datatype Value = Undefined | Null | Str(s: string) | Num(n: Number)

  /** The host functions the source calls, each mapping a string argument to its result. */
  datatype Builtins = Builtins(
    number: string -> Number,
    parseFloat: string -> Number,
    parseInt: string -> Number,
    toLowerCase: string -> string)

  /** JavaScript truthiness: `undefined`, `null`, `""`, `0` and `NaN` are falsy. */
  predicate Truthy(v: Value)
  {
    match v
    case Undefined => false
    case Null => false
    case Str(s) => s != ""
    case Num(n) => n != NaN && n != Finite(0.0)
  }

  /** `v || null`. */
  function OrNull(v: Value): (r: Value)
    ensures Truthy(v) ==> r == v
    ensures !Truthy(v) ==> r == Null
    ensures r == Null || Truthy(r)
  {
    if Truthy(v) then v else Null
  }

  /**
    `parseFloat(v)` for a value read out of a row: a present string goes to the host parser,
    while `null` and `undefined` become the strings "null" and "undefined", neither of which
    starts with a numeral, so the result is NaN.
   */
  function ParseFloatCell(js: Builtins, c: Option<string>): (n: Number)
    ensures c.None? ==> n == NaN
    ensures c.Some? ==> n == js.parseFloat(c.value)
  {
    match c
    case None => NaN
    case Some(s) => js.parseFloat(s)
  }

  /** `parseInt(v)` for an optional string; `parseInt(undefined)` is NaN. */
  function ParseIntCell(js: Builtins, c: Option<string>): (n: Number)
    ensures c.None? ==> n == NaN
    ensures c.Some? ==> n == js.parseInt(c.value)
  {
    match c
    case None => NaN
    case Some(s) => js.parseInt(s)
  }

  /** `Number(v)`: the numeric conversion `isFinite` applies to its argument. */
  function ToNumber(js: Builtins, v: Value): Number
  {
    match v
    case Undefined => NaN
    case Null => Finite(0.0)
    case Str(s) => js.number(s)
    case Num(n) => n
  }

  /**
    `parseFloat(v)` for any value: a number is printed and read back unchanged, and `null`
    and `undefined` print as words that start with no numeral.
   */
  function ParseFloatValue(js: Builtins, v: Value): Number
  {
    match v
    case Undefined => NaN
    case Null => NaN
    case Str(s) => js.parseFloat(s)
    case Num(n) => n
  }
}

=== FILE: number_order.dfy ===
/**
  The ascending order `sort((a, b) => a - b)` imposes on numbers that are not NaN
  (-Infinity < finite values < +Infinity), and an insertion sort under it.
 */
module NumberOrder {
  import opened Js
  import opened Seqs

  /** Position of a number class in the order: -Infinity, finite, +Infinity. */
  function Rank(a: Number): nat
  {
    match a
    case NegInf => 0
    case Finite(_) => 1
    case PosInf => 2
    case NaN => 3
  }

  /** `a - b < 0`: `a` sorts strictly before `b`. */
  predicate Less(a: Number, b: Number)
  {
    Rank(a) < Rank(b) || (a.Finite? && b.Finite? && a.value < b.value)
  }

  /** `a - b <= 0` for numbers that are not NaN, reading `Infinity - Infinity` as equal. */
  predicate LessEq(a: Number, b: Number)
  {
    Less(a, b) || a == b
  }

  /**
    No element is NaN. The order is then total; the comparator `a - b` is still NaN for two
    equal infinities, which the language leaves to the engine, and the model takes the order
    engines produce.
   */
  predicate NoNaN(s: seq<Number>)
  {
    forall i :: 0 <= i < |s| ==> s[i] != NaN
  }

  predicate Ascending(s: seq<Number>)
  {
    forall i, j :: 0 <= i < j < |s| ==> LessEq(s[i], s[j])
  }

  lemma LessEqTotal(a: Number, b: Number)
    requires a != NaN && b != NaN
    ensures LessEq(a, b) || LessEq(b, a)
  {
  }

  lemma LessEqTrans(a: Number, b: Number, c: Number)
    requires LessEq(a, b) && LessEq(b, c)
    ensures LessEq(a, c)
  {
  }

  /** Insert `x` into an ascending list in front of the first larger element. */
  function Insert(x: Number, s: seq<Number>): (r: seq<Number>)
    requires x != NaN && NoNaN(s) && Ascending(s)
    ensures |r| == |s| + 1
    ensures multiset(r) == multiset(s) + multiset{x}
    ensures NoNaN(r) && Ascending(r)
  {
    if |s| == 0 then [x]
    else if LessEq(x, s[0]) then
      assert forall j :: 0 <= j < |s| ==> LessEq(x, s[j]) by {
        forall j | 0 <= j < |s| ensures LessEq(x, s[j]) {
          LessEqTrans(x, s[0], s[j]);
        }
      }
      [x] + s
    else
      LessEqTotal(x, s[0]);
      var rest := Insert(x, s[1..]);
      assert s == [s[0]] + s[1..];
      assert forall j :: 0 <= j < |rest| ==> LessEq(s[0], rest[j]) by {
        forall j | 0 <= j < |rest| ensures LessEq(s[0], rest[j]) {
          assert rest[j] in multiset(rest);
          assert rest[j] == x || rest[j] in multiset(s[1..]);
          if rest[j] != x {
            assert rest[j] in s[1..];
          }
        }
      }
      [s[0]] + rest
  }

  /** `[...values].sort((a, b) => a - b)` for values that are not NaN. */
  function Sort(s: seq<Number>): (r: seq<Number>)
    requires NoNaN(s)
    ensures |r| == |s|
    ensures multiset(r) == multiset(s)
    ensures NoNaN(r) && Ascending(r)
  {
    if |s| == 0 then []
    else
      assert s == [s[0]] + s[1..];
      Insert(s[0], Sort(s[1..]))
  }
}

=== FILE: objects.dfy ===
/** JavaScript objects built by assigning properties one after another. */
module Objects {

  /**
    The object obtained by running `obj[keys[i]] = vals[i]` for i = 0, 1, ...: it has a
    property for every key, and a key given more than once keeps its LAST value.
   */
  function Assign<V>(keys: seq<string>, vals: seq<V>): (m: map<string, V>)
    requires |keys| == |vals|
    ensures forall k :: k in m <==> k in keys
    ensures forall i :: 0 <= i < |keys| && keys[i] !in keys[i + 1..] ==> m[keys[i]] == vals[i]
    decreases |keys|
  {
    if |keys| == 0 then map[]
    else
      var rest := Assign(keys[1..], vals[1..]);
      var m := map[keys[0] := vals[0]] + rest;
      assert forall k :: k in m <==> k in keys by {
        assert keys == [keys[0]] + keys[1..];
      }
      forall i | 0 <= i < |keys| && keys[i] !in keys[i + 1..] ensures m[keys[i]] == vals[i] {
        if i > 0 {
          assert keys[i + 1..] == keys[1..][i..];
          assert keys[i] == keys[1..][i - 1] && vals[i] == vals[1..][i - 1];
        }
      }
      m
  }

  /** Every property's value was written at some position carrying that key. */
  lemma {:induction false} AssignedFrom<V>(keys: seq<string>, vals: seq<V>, k: string) returns (i: nat)
    requires |keys| == |vals| && k in Assign(keys, vals)
    ensures i < |keys| && keys[i] == k && Assign(keys, vals)[k] == vals[i]
    decreases |keys|
  {
    var rest := Assign(keys[1..], vals[1..]);
    if k in rest {
      var j := AssignedFrom(keys[1..], vals[1..], k);
      i := j + 1;
    } else {
      i := 0;
    }
  }
}

=== FILE: results.dfy ===
/**
  The results page's figures: the selected columns, the sample counts of the 80/20 split
  and the truncated data preview (eight rows, five columns).
 */
module Results {
  import opened Wrappers
  import opened Seqs
  import opened Dataset
  import Clean
  import Upload
  import Js

  /** `csvColumns?.filter((c) => c.selected) || []`. */
  function SelectedColumns(state: State): (sel: seq<Column>)
    ensures state.csvColumns.None? ==> sel == []
    ensures state.csvColumns.Some? ==>
              && |sel| == Clean.SelectedCount(state.csvColumns.value)
              && IsSubseq(sel, state.csvColumns.value)
    ensures forall i :: 0 <= i < |sel| ==> sel[i].selected
  {
    match state.csvColumns
    case None => []
    case Some(columns) => Clean.PreviewColumns(columns)
  }

  /** `csvData?.length || 0`. */
  function TotalSamples(state: State): (n: nat)
    ensures state.csvData.None? ==> n == 0
    ensures state.csvData.Some? ==> n == |state.csvData.value|
  {
    match state.csvData
    case None => 0
    case Some(rows) => |rows|
  }

  /** `Math.floor(totalSamples * 0.8)`, computed exactly as ⌊4n/5⌋. */
  function TrainingSamples(total: nat): (n: nat)
    ensures 5 * n <= 4 * total < 5 * n + 5
  {
    (4 * total) / 5
  }

  /** `totalSamples - trainingSamples`. */
  function TestSamples(total: nat): (n: nat)
    ensures n + TrainingSamples(total) == total
  {
    total - TrainingSamples(total)
  }

  /** The split never loses or invents a sample, and the test share is the larger remainder. */
  lemma SplitBounds(total: nat)
    ensures TrainingSamples(total) + TestSamples(total) == total
    ensures TrainingSamples(total) <= total && TestSamples(total) <= total
    ensures total >= 5 ==> TrainingSamples(total) >= 1 && TestSamples(total) >= 1
    ensures total % 5 == 0 ==> 4 * TestSamples(total) == TrainingSamples(total)
  {
  }

  /** Before any upload the page has no columns and no samples to split. */
  lemma BeforeUpload()
    ensures SelectedColumns(Empty) == []
    ensures TotalSamples(Empty) == 0 && TrainingSamples(0) == 0 && TestSamples(0) == 0
  {
  }

  /** A preview cell: `row[col.name] ?? <null marker>`; only a missing value shows the marker. */
  datatype Shown = Text(s: string) | NullMarker

  function ShowCell(row: Row, name: string): (c: Shown)
    ensures c.NullMarker? <==> CellOf(row, name).None?
    ensures c.Text? ==> Some(c.s) == CellOf(row, name)
  {
    match CellOf(row, name)
    case None => NullMarker
    case Some(s) => Text(s)
  }

  /**
    The preview table: the shown cells row by row, the "+k más" header when more columns are
    selected than shown, and the "y k filas más" note when more rows exist than shown.
   */
  datatype Preview = Preview(cells: seq<seq<Shown>>, moreColumns: Option<nat>, moreRows: Option<nat>)

  function PreviewOf(state: State): (p: Preview)
    ensures var sel := SelectedColumns(state);
            var total := TotalSamples(state);
            && |p.cells| == Min(8, total)
            && (forall r :: 0 <= r < |p.cells| ==>
                  && |p.cells[r]| == Min(5, |sel|)
                  && forall c :: 0 <= c < |p.cells[r]| ==> p.cells[r][c] == ShowCell(state.csvData.value[r], sel[c].name))
            && (p.moreColumns.Some? <==> |sel| > 5)
            && (p.moreColumns.Some? ==> p.moreColumns.value + 5 == |sel|)
            && (p.moreRows.Some? <==> total > 8)
            && (p.moreRows.Some? ==> p.moreRows.value + 8 == total)
  {
    var sel := SelectedColumns(state);
    var shownCols := sel[..Min(5, |sel|)];
    var rows := if state.csvData.Some? then state.csvData.value else [];
    var shownRows := rows[..Min(8, |rows|)];
    Preview(
      seq(|shownRows|, r requires 0 <= r < |shownRows| =>
        seq(|shownCols|, c requires 0 <= c < |shownCols| => ShowCell(shownRows[r], shownCols[c].name))),
      if |sel| > 5 then Some(|sel| - 5) else None,
      if |rows| > 8 then Some(|rows| - 8) else None)
  }

  /** Rows and columns shown plus those the two notes report always add up to the totals. */
  lemma PreviewAccountsForEverything(state: State)
    ensures var p := PreviewOf(state);
            && |p.cells| + (if p.moreRows.Some? then p.moreRows.value else 0) == TotalSamples(state)
            && Min(5, |SelectedColumns(state)|) + (if p.moreColumns.Some? then p.moreColumns.value else 0)
                 == |SelectedColumns(state)|
  {
  }

  /** Right after an upload every column is selected, so the page shows all of them. */
  lemma AfterUploadAllSelected(js: Js.Builtins, fileName: string, text: string)
    requires Upload.HasHeaderLine(text)
    ensures var state := Upload.Load(js, fileName, text);
            && SelectedColumns(state) == state.csvColumns.value
            && TotalSamples(state) == |Upload.ContentLines(text)| - 1
  {
    var state := Upload.Load(js, fileName, text);
    var columns := state.csvColumns.value;
    forall i | 0 <= i < |columns| ensures IsSelected(columns[i]) {
      assert columns[i] in columns;
    }
    FilterAll(IsSelected, columns);
  }
}

=== FILE: seqs.dfy ===
/** Order-preserving filtering and counting over sequences (JavaScript's `filter`/`length`). */
module Seqs {

  /** `Math.min(a, b)`, as used for slice lengths. */
  function Min(a: nat, b: nat): (m: nat)
    ensures m <= a && m <= b && (m == a || m == b)
  {
    if a <= b then a else b
  }

  /** Number of elements of `s` that satisfy `p`. */
  function Count<T>(p: T -> bool, s: seq<T>): (n: nat)
    ensures n <= |s|
  {
    if |s| == 0 then 0 else (if p(s[0]) then 1 else 0) + Count(p, s[1..])
  }

  /** `a` occurs in `b` in order, possibly with gaps. */
  predicate IsSubseq<T(==)>(a: seq<T>, b: seq<T>)
    decreases |b|
  {
    |a| == 0 || (|b| > 0 && if a[0] == b[0] then IsSubseq(a[1..], b[1..]) else IsSubseq(a, b[1..]))
  }

  /** `s.filter(p)`: the elements satisfying `p`, in their original order. */
  function Filter<T(==)>(p: T -> bool, s: seq<T>): (r: seq<T>)
    ensures |r| == Count(p, s)
    ensures forall i :: 0 <= i < |r| ==> p(r[i])
    ensures forall i :: 0 <= i < |s| && p(s[i]) ==> s[i] in r
    ensures forall i :: 0 <= i < |r| ==> r[i] in s
    ensures IsSubseq(r, s)
  {
    if |s| == 0 then []
    else if p(s[0]) then [s[0]] + Filter(p, s[1..])
    else Filter(p, s[1..])
  }

  /** `Count` is 0 exactly when no element qualifies, and `|s|` exactly when all do. */
  lemma {:induction false} CountExtremes<T>(p: T -> bool, s: seq<T>)
    ensures Count(p, s) == 0 <==> forall i :: 0 <= i < |s| ==> !p(s[i])
    ensures Count(p, s) == |s| <==> forall i :: 0 <= i < |s| ==> p(s[i])
  {
    if |s| > 0 {
      CountExtremes(p, s[1..]);
      assert forall i :: 1 <= i < |s| ==> s[i] == s[1..][i - 1];
    }
  }

  lemma {:induction false} CountAppend<T>(p: T -> bool, a: seq<T>, b: seq<T>)
    ensures Count(p, a + b) == Count(p, a) + Count(p, b)
  {
    if |a| == 0 {
      assert a + b == b;
    } else {
      assert (a + b)[1..] == a[1..] + b;
      CountAppend(p, a[1..], b);
    }
  }

  /** A subsequence made only of `p`-elements is no longer than the number of `p`-elements. */
  lemma {:induction false} SubseqCountBound<T>(p: T -> bool, r: seq<T>, s: seq<T>)
    requires IsSubseq(r, s)
    requires forall i :: 0 <= i < |r| ==> p(r[i])
    ensures |r| <= Count(p, s)
    decreases |s|
  {
    if |r| == 0 {
    } else if r[0] == s[0] {
      SubseqCountBound(p, r[1..], s[1..]);
    } else {
      SubseqCountBound(p, r, s[1..]);
    }
  }

  /** `Filter` is the only subsequence of `p`-elements that has `Count(p, s)` elements. */
  lemma {:induction false} FilterUnique<T>(p: T -> bool, r: seq<T>, s: seq<T>)
    requires IsSubseq(r, s)
    requires forall i :: 0 <= i < |r| ==> p(r[i])
    requires |r| == Count(p, s)
    ensures r == Filter(p, s)
    decreases |s|
  {
    if |s| == 0 {
    } else if |r| == 0 {
      FilterUnique(p, r, s[1..]);
    } else if r[0] == s[0] {
      FilterUnique(p, r[1..], s[1..]);
      assert r == [r[0]] + r[1..];
    } else {
      SubseqCountBound(p, r, s[1..]);
      FilterUnique(p, r, s[1..]);
    }
  }

  /** Filtering by a property every element has changes nothing. */
  lemma {:induction false} FilterAll<T>(p: T -> bool, s: seq<T>)
    requires forall i :: 0 <= i < |s| ==> p(s[i])
    ensures Filter(p, s) == s
  {
    if |s| > 0 {
      FilterAll(p, s[1..]);
      assert s == [s[0]] + s[1..];
    }
  }

  /** A property every element has survives filtering. */
  lemma {:induction false} FilterPreserves<T>(p: T -> bool, q: T -> bool, s: seq<T>)
    requires forall i :: 0 <= i < |s| ==> q(s[i])
    ensures forall i :: 0 <= i < |Filter(p, s)| ==> q(Filter(p, s)[i])
  {
    if |s| > 0 {
      FilterPreserves(p, q, s[1..]);
    }
  }

  /** Rearranging a sequence does not change how many elements qualify. */
  lemma {:induction false} CountPerm<T>(p: T -> bool, a: seq<T>, b: seq<T>)
    requires multiset(a) == multiset(b)
    ensures Count(p, a) == Count(p, b)
    decreases |a|
  {
    if |a| == 0 {
      assert |b| == |multiset(b)| == 0;
    } else {
      var x := a[0];
      assert x in multiset(b);
      var j :| 0 <= j < |b| && b[j] == x;
      MultisetRemove(b, j);
      assert a == [x] + a[1..];
      assert multiset(a[1..]) == multiset(a) - multiset{x};
      CountPerm(p, a[1..], b[..j] + b[j + 1..]);
      CountRemove(p, b, j);
    }
  }

  /** Removing position `j` removes one copy of `b[j]`. */
  lemma MultisetRemove<T>(b: seq<T>, j: nat)
    requires j < |b|
    ensures multiset(b[..j] + b[j + 1..]) == multiset(b) - multiset{b[j]}
  {
    assert b == b[..j] + [b[j]] + b[j + 1..];
    assert multiset(b) == multiset(b[..j]) + multiset{b[j]} + multiset(b[j + 1..]);
  }

  /** Removing position `j` removes `b[j]` from the count if it qualified. */
  lemma CountRemove<T>(p: T -> bool, b: seq<T>, j: nat)
    requires j < |b|
    ensures Count(p, b) == (if p(b[j]) then 1 else 0) + Count(p, b[..j] + b[j + 1..])
  {
    assert b[..j] + b[j..] == b;
    CountAppend(p, b[..j], b[j..]);
    assert b[j..][1..] == b[j + 1..];
    CountAppend(p, b[..j], b[j + 1..]);
  }

  /** Two tests that agree on every element count the same elements. */
  lemma {:induction false} CountSame<T>(p: T -> bool, q: T -> bool, s: seq<T>)
    requires forall i :: 0 <= i < |s| ==> p(s[i]) == q(s[i])
    ensures Count(p, s) == Count(q, s)
  {
    if |s| > 0 {
      assert forall i :: 1 <= i < |s| ==> s[i] == s[1..][i - 1];
      CountSame(p, q, s[1..]);
    }
  }

  /** Complementary tests split the elements between them. */
  lemma {:induction false} CountComplement<T>(p: T -> bool, q: T -> bool, s: seq<T>)
    requires forall i :: 0 <= i < |s| ==> q(s[i]) == !p(s[i])
    ensures Count(p, s) + Count(q, s) == |s|
  {
    if |s| > 0 {
      assert forall i :: 1 <= i < |s| ==> s[i] == s[1..][i - 1];
      CountComplement(p, q, s[1..]);
    }
  }
}

=== FILE: text.dfy ===
/**
  The JavaScript string primitives the CSV readers rely on: `String.prototype.trim`,
  `String.prototype.split` with a one-character separator, and `String.prototype.includes`.
 */
module Text {

  /** The ECMAScript WhiteSpace and LineTerminator code points, which `trim` removes. */
  predicate IsJsWhitespace(c: char)
  {
    || c == '\t' || c == '\U{000B}' || c == '\U{000C}' || c == ' ' || c == '\U{00A0}' || c == '\U{FEFF}'
    || c == '\U{1680}' || ('\U{2000}' <= c <= '\U{200A}') || c == '\U{202F}' || c == '\U{205F}' || c == '\U{3000}'
    || c == '\n' || c == '\r' || c == '\U{2028}' || c == '\U{2029}'
  }

  /** Every character of `s` is whitespace (vacuously true of ""). */
  predicate IsBlank(s: string)
  {
    forall i :: 0 <= i < |s| ==> IsJsWhitespace(s[i])
  }

  /** `s` with its leading whitespace removed. */
  function TrimStart(s: string): (r: string)
    ensures |r| <= |s| && r == s[|s| - |r|..]
    ensures IsBlank(s[..|s| - |r|])
    ensures r == [] || !IsJsWhitespace(r[0])
  {
    if |s| > 0 && IsJsWhitespace(s[0]) then
      var r := TrimStart(s[1..]);
      assert s[..|s| - |r|] == [s[0]] + s[1..][..|s| - 1 - |r|];
      r
    else s
  }

  /** `s` with its trailing whitespace removed. */
  function TrimEnd(s: string): (r: string)
    ensures |r| <= |s| && r == s[..|r|]
    ensures IsBlank(s[|r|..])
    ensures r == [] || !IsJsWhitespace(r[|r| - 1])
  {
    if |s| > 0 && IsJsWhitespace(s[|s| - 1]) then
      var init := s[..|s| - 1];
      var r := TrimEnd(init);
      assert r == s[..|r|] by {
        assert init[..|r|] == s[..|r|];
      }
      assert IsBlank(s[|r|..]) by {
        assert s[|r|..] == init[|r|..] + [s[|s| - 1]];
      }
      r
    else s
  }

  /** `s.trim()`: the longest infix of `s` that neither starts nor ends with whitespace. */
  function Trim(s: string): (r: string)
    ensures r == [] <==> IsBlank(s)
    ensures r == [] || (!IsJsWhitespace(r[0]) && !IsJsWhitespace(r[|r| - 1]))
    ensures |r| <= |s|
    ensures exists a, b :: BlankAround(s, r, a, b)
  {
    var t := TrimStart(s);
    var r := TrimEnd(t);
    assert r == [] ==> IsBlank(s) by {
      if r == [] {
        assert s == s[..|s| - |t|] + t;
      }
    }
    TrimSlice(s);
    r
  }

  /** `r` is `s[a..b]` and everything outside it is whitespace. */
  predicate BlankAround(s: string, r: string, a: nat, b: nat)
  {
    a <= b <= |s| && r == s[a..b] && IsBlank(s[..a]) && IsBlank(s[b..])
  }

  /** Trimming both ends cuts `s` into a blank prefix, the result, and a blank suffix. */
  lemma TrimSlice(s: string)
    ensures exists a, b :: BlankAround(s, TrimEnd(TrimStart(s)), a, b)
  {
    var t := TrimStart(s);
    var r := TrimEnd(t);
    var a := |s| - |t|;
    var b := a + |r|;
    assert s[a..b] == t[..|r|];
    forall i | 0 <= i < |s| - b ensures IsJsWhitespace(s[b..][i]) {
      assert s[b..][i] == t[|r|..][i];
    }
    assert BlankAround(s, r, a, b);
  }

  /** `s` has no surrounding whitespace. */
  predicate IsTrimmed(s: string)
  {
    Trim(s) == s
  }

  /** Trimming twice is trimming once. */
  lemma TrimIdempotent(s: string)
    ensures Trim(Trim(s)) == Trim(s)
  {
    var r := Trim(s);
    assert TrimStart(r) == r;
    assert TrimEnd(r) == r;
  }

  /** Index of the first occurrence of `c` in `s`. */
  function IndexOf(s: string, c: char): (i: nat)
    requires c in s
    ensures i < |s| && s[i] == c && c !in s[..i]
  {
    if s[0] == c then 0 else 1 + IndexOf(s[1..], c)
  }

  /** `parts.join(sep)` for a one-character separator. */
  function Join(parts: seq<string>, sep: char): string
    requires |parts| >= 1
  {
    if |parts| == 1 then parts[0] else parts[0] + [sep] + Join(parts[1..], sep)
  }

  /**
    `s.split(sep)`: the maximal separator-free pieces of `s`, one more than the number of
    separators; `"".split(sep)` is `[""]`.
   */
  function Split(s: string, sep: char): (parts: seq<string>)
    ensures |parts| >= 1
    ensures forall i :: 0 <= i < |parts| ==> sep !in parts[i]
    ensures Join(parts, sep) == s
    decreases |s|
  {
    if sep in s then
      var i := IndexOf(s, sep);
      var rest := Split(s[i + 1..], sep);
      var parts := [s[..i]] + rest;
      assert parts[1..] == rest;
      assert s == s[..i] + [sep] + s[i + 1..];
      parts
    else
      [s]
  }

  /** Splitting undoes joining whenever no piece holds the separator. */
  lemma {:induction false} SplitJoin(parts: seq<string>, sep: char)
    requires |parts| >= 1
    requires forall i :: 0 <= i < |parts| ==> sep !in parts[i]
    ensures Split(Join(parts, sep), sep) == parts
    decreases |parts|
  {
    if |parts| > 1 {
      var s := Join(parts, sep);
      var p0 := parts[0];
      assert s == p0 + [sep] + Join(parts[1..], sep);
      assert s[|p0|] == sep;
      assert sep in s;
      var i := IndexOf(s, sep);
      assert s[..|p0|] == p0;
      assert i == |p0|;
      assert s[i + 1..] == Join(parts[1..], sep);
      SplitJoin(parts[1..], sep);
      assert parts == [p0] + parts[1..];
    }
  }

  /** `p` is a prefix of `s`. */
  predicate IsPrefix(p: string, s: string)
  {
    |p| <= |s| && s[..|p|] == p
  }

  /** `s.includes(t)`: `t` occurs as a contiguous infix of `s`. */
  predicate Contains(s: string, t: string)
    decreases |s|
  {
    IsPrefix(t, s) || (|s| > 0 && Contains(s[1..], t))
  }

  /** A copy of `t` at any offset of `s` makes `Contains` hold. */
  lemma {:induction false} ContainsAt(s: string, t: string, k: nat)
    requires k + |t| <= |s| && s[k..k + |t|] == t
    ensures Contains(s, t)
    decreases k
  {
    if k > 0 {
      assert s[1..][k - 1..k - 1 + |t|] == s[k..k + |t|];
      ContainsAt(s[1..], t, k - 1);
    } else {
      assert s[..|t|] == s[0..0 + |t|];
    }
  }

  /** Conversely, `Contains` only holds when some offset of `s` starts a copy of `t`. */
  lemma {:induction false} ContainsWitness(s: string, t: string) returns (k: nat)
    requires Contains(s, t)
    ensures k + |t| <= |s| && s[k..k + |t|] == t
    decreases |s|
  {
    if IsPrefix(t, s) {
      k := 0;
    } else {
      var k' := ContainsWitness(s[1..], t);
      k := k' + 1;
      assert s[1..][k'..k' + |t|] == s[k..k + |t|];
    }
  }

  /** `line.split(',').map(v => v.trim())`. */
  function Fields(line: string): (fields: seq<string>)
    ensures |fields| == |Split(line, ',')|
    ensures forall i :: 0 <= i < |fields| ==> fields[i] == Trim(Split(line, ',')[i])
  {
    var parts := Split(line, ',');
    seq(|parts|, i requires 0 <= i < |parts| => Trim(parts[i]))
  }
}

=== FILE: training.dfy ===
/**
  Turning the selected columns and parsed rows into training samples before any tensor is
  built: column choice, feature/label extraction, the two error conditions and the
  train/test split.
 */
module Training {
  import opened Wrappers
  import opened Seqs
  import opened Js
  import opened Dataset
  import Upload
  import Clean

  datatype TrainingError =
    | TooFewNumericColumns  // fewer than two usable columns
    | NoValidRows           // no row has a label that parses

  /** `col.type === 'number' || col.type === 'integer'`. */
  predicate IsTrainingColumn(c: Column)
  {
    c.tag == "number" || c.tag == "integer"
  }

  /** The columns training uses, in the order given. */
  function TrainingColumns(columns: seq<Column>): (r: seq<Column>)
    ensures |r| == Count(IsTrainingColumn, columns)
    ensures forall i :: 0 <= i < |r| ==> IsTrainingColumn(r[i])
    ensures IsSubseq(r, columns)
  {
    Filter(IsTrainingColumn, columns)
  }

  /** `isNaN(val) ? 0 : val` for `val = parseFloat(row[col.name])`. */
  function FeatureValue(js: Builtins, row: Row, c: Column): (x: Number)
    ensures x != NaN
    ensures ParseFloatCell(js, CellOf(row, c.name)) != NaN ==> x == ParseFloatCell(js, CellOf(row, c.name))
    ensures ParseFloatCell(js, CellOf(row, c.name)) == NaN ==> x == Finite(0.0)
  {
    var v := ParseFloatCell(js, CellOf(row, c.name));
    if v == NaN then Finite(0.0) else v
  }

  /** One feature per feature column, in column order. */
  function FeatureVector(js: Builtins, row: Row, features: seq<Column>): (v: seq<Number>)
    ensures |v| == |features|
    ensures forall j :: 0 <= j < |v| ==> v[j] == FeatureValue(js, row, features[j])
  {
    seq(|features|, j requires 0 <= j < |features| => FeatureValue(js, row, features[j]))
  }

  /** The label cell, `parseFloat(row[numericColumns[numericColumns.length - 1].name])`. */
  function TargetOf(js: Builtins, row: Row, target: Column): Number
  {
    ParseFloatCell(js, CellOf(row, target.name))
  }

  /** One row of `features` and the matching entry of `labels`. */
  datatype Sample = Sample(features: seq<Number>, target: Number)

  /** `rowFeatures.length > 0 && !isNaN(label)`. */
  predicate Keeps(js: Builtins, features: seq<Column>, target: Column, row: Row)
  {
    |features| > 0 && TargetOf(js, row, target) != NaN
  }

  function SampleOf(js: Builtins, features: seq<Column>, target: Column, row: Row): Sample
  {
    Sample(FeatureVector(js, row, features), TargetOf(js, row, target))
  }

  /** The `forEach` over the rows: one sample per kept row, in row order. */
  function Samples(js: Builtins, rows: seq<Row>, features: seq<Column>, target: Column): (samples: seq<Sample>)
    ensures |samples| == Count((row: Row) => Keeps(js, features, target, row), rows)
    ensures forall i :: 0 <= i < |samples| ==>
              && |samples[i].features| == |features|
              && samples[i].target != NaN
              && forall j :: 0 <= j < |features| ==> samples[i].features[j] != NaN
  {
    if |rows| == 0 then []
    else
      var rest := Samples(js, rows[1..], features, target);
      if Keeps(js, features, target, rows[0]) then [SampleOf(js, features, target, rows[0])] + rest else rest
  }

  /**
    The samples are exactly the kept rows, each turned into its features and label, so
    features and labels stay aligned and keep row order.
   */
  lemma {:induction false} SamplesAreKeptRows(js: Builtins, rows: seq<Row>, features: seq<Column>, target: Column)
    ensures var kept := Filter((row: Row) => Keeps(js, features, target, row), rows);
            var samples := Samples(js, rows, features, target);
            && |samples| == |kept|
            && forall i :: 0 <= i < |samples| ==> samples[i] == SampleOf(js, features, target, kept[i])
  {
    if |rows| > 0 {
      var p := (row: Row) => Keeps(js, features, target, row);
      SamplesAreKeptRows(js, rows[1..], features, target);
      var rest := Samples(js, rows[1..], features, target);
      var keptRest := Filter(p, rows[1..]);
      if p(rows[0]) {
        assert Samples(js, rows, features, target) == [SampleOf(js, features, target, rows[0])] + rest;
        assert Filter(p, rows) == [rows[0]] + keptRest;
      } else {
        assert Samples(js, rows, features, target) == rest;
        assert Filter(p, rows) == keptRest;
      }
    }
  }

  /** With at least one feature column a row is kept exactly when its label parses. */
  lemma KeepsIffLabelParses(js: Builtins, features: seq<Column>, target: Column, row: Row)
    requires |features| >= 1
    ensures Keeps(js, features, target, row) <==> TargetOf(js, row, target) != NaN
  {
  }

  /** What `prepareData` hands to the tensor code. */
  datatype Prepared = Prepared(samples: seq<Sample>, inputShape: nat)

  /**
    `prepareData` without normalisation and split: the last training column is the label,
    the others are the features.
   */
  function PrepareData(js: Builtins, rows: seq<Row>, columns: seq<Column>): (r: Result<Prepared, TrainingError>)
    ensures r == Err(TooFewNumericColumns) <==> |TrainingColumns(columns)| < 2
    ensures r.Ok? ==>
              && r.value.inputShape == |TrainingColumns(columns)| - 1
              && 1 <= |r.value.samples| <= |rows|
              && forall i :: 0 <= i < |r.value.samples| ==> |r.value.samples[i].features| == r.value.inputShape
    ensures r.Ok? ==>
              var numeric := TrainingColumns(columns);
              r.value.samples == Samples(js, rows, numeric[..|numeric| - 1], numeric[|numeric| - 1])
  {
    var numeric := TrainingColumns(columns);
    if |numeric| < 2 then Err(TooFewNumericColumns)
    else
      var features := numeric[..|numeric| - 1];
      var target := numeric[|numeric| - 1];
      var samples := Samples(js, rows, features, target);
      if |samples| == 0 then Err(NoValidRows)
      else Ok(Prepared(samples, |numeric| - 1))
  }

  /** Training fails for lack of rows exactly when no row's label parses. */
  lemma NoValidRowsIff(js: Builtins, rows: seq<Row>, columns: seq<Column>)
    requires |TrainingColumns(columns)| >= 2
    ensures var numeric := TrainingColumns(columns);
            var target := numeric[|numeric| - 1];
            PrepareData(js, rows, columns) == Err(NoValidRows) <==>
              forall r :: 0 <= r < |rows| ==> TargetOf(js, rows[r], target) == NaN
  {
    var numeric := TrainingColumns(columns);
    var features := numeric[..|numeric| - 1];
    var target := numeric[|numeric| - 1];
    var p := (row: Row) => Keeps(js, features, target, row);
    CountExtremes(p, rows);
  }

  /**
    The upload page only tags columns "float" or "string", so no uploaded column is ever a
    training column, whatever the user toggles.
   */
  lemma UploadTagsNeverTrain(js: Builtins, rows: seq<Row>, columns: seq<Column>)
    requires forall i :: 0 <= i < |columns| ==> columns[i].tag == "float" || columns[i].tag == "string"
    ensures PrepareData(js, rows, columns) == Err(TooFewNumericColumns)
  {
    CountExtremes(IsTrainingColumn, columns);
  }

  /** So training on freshly uploaded data, after any toggle, always fails. */
  lemma UploadedDataNeverTrains(js: Builtins, rows: seq<Row>, headers: seq<string>, ids: seq<int>)
    ensures var columns := Upload.ProfileColumns(js, headers, rows);
            var toggled := Clean.ToggleAll(columns, ids);
            PrepareData(js, rows, Clean.PreviewColumns(toggled)) == Err(TooFewNumericColumns)
  {
    var toggled := Clean.ToggleAll(Upload.ProfileColumns(js, headers, rows), ids);
    var selected := Clean.PreviewColumns(toggled);
    assert forall i :: 0 <= i < |selected| ==> selected[i] in toggled;
    UploadTagsNeverTrain(js, rows, selected);
  }

  /**
    The train set is the first `split` samples and the test set the rest; `split` stands for
    `Math.floor(n * (1 - testSize))`.
   */
  function TrainTestSplit(samples: seq<Sample>, split: nat): (r: (seq<Sample>, seq<Sample>))
    requires split <= |samples|
    ensures r.0 + r.1 == samples
    ensures |r.0| == split && |r.1| == |samples| - split
  {
    (samples[..split], samples[split..])
  }
}

=== FILE: upload.dfy ===
/**
  The upload page's file handler: the text of a CSV file becomes a list of rows keyed by
  header and one profile per header (null count and a "float"/"string" tag).
 */
module Upload {
  import opened Wrappers
  import opened Seqs
  import opened Text
  import opened Js
  import opened Dataset
  import Objects
  import Helpers

  /** `line.trim()` is truthy: the line holds more than whitespace. */
  predicate HasContent(line: string)
  {
    Trim(line) != ""
  }

  /** `text.split('\n').filter(line => line.trim())`: the lines kept untrimmed, in file order. */
  function ContentLines(text: string): (lines: seq<string>)
    ensures forall i :: 0 <= i < |lines| ==> !IsBlank(lines[i])
    ensures forall i :: 0 <= i < |Split(text, '\n')| && !IsBlank(Split(text, '\n')[i]) ==> Split(text, '\n')[i] in lines
    ensures IsSubseq(lines, Split(text, '\n'))
    ensures |lines| == Count(HasContent, Split(text, '\n'))
  {
    Filter(HasContent, Split(text, '\n'))
  }

  /** `values[index] || null`: a missing or empty field is null. */
  function CellAt(values: seq<string>, index: nat): (c: Cell)
    ensures c.None? <==> index >= |values| || values[index] == ""
    ensures c.Some? ==> c.value == values[index]
  {
    if index < |values| && values[index] != "" then Some(values[index]) else None
  }

  /** The cells a data line contributes, one per header position. */
  function CellsFor(headers: seq<string>, values: seq<string>): (cells: seq<Cell>)
    ensures |cells| == |headers|
    ensures forall i :: 0 <= i < |headers| ==> cells[i] == CellAt(values, i)
  {
    seq(|headers|, i requires 0 <= i < |headers| => CellAt(values, i))
  }

  /**
    `headers.reduce((obj, header, index) => { obj[header] = values[index] || null; ... }, {})`:
    one property per header; a header that occurs twice keeps its last position's cell.
   */
  function MakeRow(headers: seq<string>, values: seq<string>): (row: Row)
    ensures forall h :: h in row <==> h in headers
    ensures forall i :: 0 <= i < |headers| && headers[i] !in headers[i + 1..] ==>
              row[headers[i]] == CellAt(values, i)
    ensures forall h :: h in row && row[h].Some? ==> row[h].value != ""
  {
    var cells := CellsFor(headers, values);
    var row := Objects.Assign(headers, cells);
    forall h | h in row ensures row[h] in cells {
      var i := Objects.AssignedFrom(headers, cells, h);
    }
    row
  }

  /** The first content line's trimmed comma-separated fields. */
  function Headers(lines: seq<string>): seq<string>
    requires |lines| >= 1
  {
    Fields(lines[0])
  }

  /** The rows built from the content lines after the header, in file order. */
  function DataRows(headers: seq<string>, lines: seq<string>): (rows: seq<Row>)
    requires |lines| >= 1
    ensures |rows| == |lines| - 1
    ensures forall r :: 0 <= r < |rows| ==> rows[r] == MakeRow(headers, Fields(lines[r + 1]))
  {
    if |lines| == 1 then [] else [MakeRow(headers, Fields(lines[1]))] + DataRows(headers, lines[1..])
  }

  /**
    `data.filter(row => !row[header] || row[header] === '').length`: 0 exactly when every row
    has a non-empty string for `header`, and the row count exactly when none has.
   */
  function NullCount(rows: seq<Row>, header: string): (n: nat)
    ensures n <= |rows|
    ensures n == 0 <==> forall r :: 0 <= r < |rows| ==> CellOf(rows[r], header).Some? && CellOf(rows[r], header).value != ""
    ensures n == |rows| <==> forall r :: 0 <= r < |rows| ==> IsFalsyCell(CellOf(rows[r], header))
  {
    var cells := ColumnCells(rows, header);
    CountExtremes(IsFalsyCell, cells);
    |Filter(IsFalsyCell, cells)|
  }

  /** `row[header] && !isNaN(Number(row[header]))`. */
  predicate NumberTest(js: Builtins, c: Cell)
  {
    c.Some? && c.value != "" && js.number(c.value) != NaN
  }

  /** `data.some(row => row[header] && !isNaN(Number(row[header])))`. */
  predicate AnyNumber(js: Builtins, rows: seq<Row>, header: string)
    ensures AnyNumber(js, rows, header) <==> exists r :: 0 <= r < |rows| && NumberTest(js, CellOf(rows[r], header))
  {
    if |rows| == 0 then false
    else NumberTest(js, CellOf(rows[0], header)) || AnyNumber(js, rows[1..], header)
  }

  /**
    `headers.map((header, index) => ...)`: column i has id i+1, the header as name, the tag
    "float" exactly when some row's cell passes `Number`, selected, and the falsy-cell count.
   */
  function ProfileColumns(js: Builtins, headers: seq<string>, rows: seq<Row>): (columns: seq<Column>)
    ensures |columns| == |headers|
    ensures forall i :: 0 <= i < |columns| ==>
              && columns[i].id == i + 1
              && columns[i].name == headers[i]
              && columns[i].selected
              && columns[i].nulls <= |rows|
              && (columns[i].tag == "float" <==> exists r :: 0 <= r < |rows| && NumberTest(js, CellOf(rows[r], headers[i])))
              && (columns[i].tag == "float" || columns[i].tag == "string")
  {
    seq(|headers|, i requires 0 <= i < |headers| =>
      Column(i + 1, headers[i], if AnyNumber(js, rows, headers[i]) then "float" else "string",
             true, NullCount(rows, headers[i])))
  }

  /** The parsed file: headers and rows. */
  datatype Table = Table(headers: seq<string>, rows: seq<Row>)

  /** The file holds at least one non-blank line (the handler reads the first one unguarded). */
  predicate HasHeaderLine(text: string)
  {
    |ContentLines(text)| >= 1
  }

  /**
    The CSV split of the handler: the first content line gives the trimmed headers, and every
    later content line becomes one row with a property for each header.
   */
  function ParseCsv(text: string): (t: Table)
    requires HasHeaderLine(text)
    ensures var lines := ContentLines(text);
            && t.headers == Fields(lines[0])
            && |t.rows| == |lines| - 1
            && forall r :: 0 <= r < |t.rows| ==>
                 && (forall h :: h in t.rows[r] <==> h in t.headers)
                 && forall i :: 0 <= i < |t.headers| && t.headers[i] !in t.headers[i + 1..] ==>
                      t.rows[r][t.headers[i]] == CellAt(Fields(lines[r + 1]), i)
  {
    var lines := ContentLines(text);
    var headers := Headers(lines);
    Table(headers, DataRows(headers, lines))
  }

  /** `reader.onload` followed by the context setters: the context now holds this file only. */
  function Load(js: Builtins, fileName: string, text: string): (s: State)
    requires HasHeaderLine(text)
    ensures s.csvData.Some? && s.csvColumns.Some? && s.fileName == Some(fileName)
    ensures |s.csvData.value| == |ContentLines(text)| - 1
    ensures |s.csvColumns.value| == |Fields(ContentLines(text)[0])|
    ensures forall c :: c in s.csvColumns.value ==> c.selected
    ensures s.csvData == Some(ParseCsv(text).rows)
    ensures s.csvColumns == Some(ProfileColumns(js, ParseCsv(text).headers, ParseCsv(text).rows))
  {
    var t := ParseCsv(text);
    State(Some(t.rows), Some(ProfileColumns(js, t.headers, t.rows)), Some(fileName))
  }

  /** Every row the handler builds stores `null`, never `""`. */
  predicate NoEmptyCells(rows: seq<Row>)
  {
    forall r, h :: 0 <= r < |rows| && h in rows[r] && rows[r][h].Some? ==> rows[r][h].value != ""
  }

  lemma ParsedRowsHaveNoEmptyCells(text: string)
    requires HasHeaderLine(text)
    ensures NoEmptyCells(ParseCsv(text).rows)
  {
  }

  /** The number of rows whose cell for `header` is null or missing. */
  function NullCells(rows: seq<Row>, header: string): nat
  {
    Count(IsNullCell, ColumnCells(rows, header))
  }

  /** On the handler's rows the profile's falsy count is exactly the number of null cells. */
  lemma NullCountIsNullCells(rows: seq<Row>, header: string)
    requires NoEmptyCells(rows)
    ensures NullCount(rows, header) == NullCells(rows, header)
  {
    CountSame(IsFalsyCell, IsNullCell, ColumnCells(rows, header));
  }

  /** Each uploaded column's `nulls` is the number of rows whose cell for it is null. */
  lemma UploadedNulls(js: Builtins, text: string, i: nat)
    requires HasHeaderLine(text)
    requires i < |ParseCsv(text).headers|
    ensures var t := ParseCsv(text);
            ProfileColumns(js, t.headers, t.rows)[i].nulls == NullCells(t.rows, t.headers[i])
  {
    var t := ParseCsv(text);
    ParsedRowsHaveNoEmptyCells(text);
    NullCountIsNullCells(t.rows, t.headers[i]);
  }

  /** A column holding any cell the shared `isNumeric` accepts is tagged "float". */
  lemma NumericCellMakesFloat(js: Builtins, headers: seq<string>, rows: seq<Row>, i: nat, r: nat)
    requires i < |headers| && r < |rows|
    requires CellOf(rows[r], headers[i]).Some?
    requires Helpers.IsNumeric(js, Str(CellOf(rows[r], headers[i]).value))
    ensures ProfileColumns(js, headers, rows)[i].tag == "float"
  {
    assert NumberTest(js, CellOf(rows[r], headers[i]));
  }
}

=== FILE: upload_route.dfy ===
/**
  The server's CSV upload route, as a pure function from file text to the records it would
  insert, or to one of its two "400" errors.
 */
module UploadRoute {
  import opened Wrappers
  import opened Seqs
  import opened Text
  import opened Js
  import Objects
  import Upload

  /** The route's two client errors. */
  datatype RouteError =
    | TooFewLines   // fewer than a header line and one data line
    | NoValidRows   // every data line was empty

  /** A parsed row: a plain object whose values are strings, numbers or `null`. */
  type Record = map<string, Value>

  /** `line.length > 0`. */
  predicate NonEmpty(line: string)
  {
    line != ""
  }

  /** `lines.map(line => line.trim())`. */
  function TrimAll(lines: seq<string>): (r: seq<string>)
    ensures |r| == |lines|
    ensures forall i :: 0 <= i < |lines| ==> r[i] == Trim(lines[i])
  {
    if |lines| == 0 then [] else [Trim(lines[0])] + TrimAll(lines[1..])
  }

  /** `fileContent.split('\n').map(line => line.trim()).filter(line => line.length > 0)`. */
  function TrimmedLines(text: string): (lines: seq<string>)
    ensures forall i :: 0 <= i < |lines| ==> lines[i] != "" && Trim(lines[i]) == lines[i]
  {
    var raw := Split(text, '\n');
    var trimmed := TrimAll(raw);
    assert forall i :: 0 <= i < |trimmed| ==> IsTrimmed(trimmed[i]) by {
      forall i | 0 <= i < |trimmed| ensures IsTrimmed(trimmed[i]) {
        TrimIdempotent(raw[i]);
      }
    }
    FilterPreserves(NonEmpty, IsTrimmed, trimmed);
    Filter(NonEmpty, trimmed)
  }

  /** Filtering trimmed lines by length keeps the same lines as filtering raw lines by their trim. */
  lemma {:induction false} TrimThenFilter(lines: seq<string>)
    ensures Filter(NonEmpty, TrimAll(lines)) == TrimAll(Filter(Upload.HasContent, lines))
  {
    if |lines| > 0 {
      TrimThenFilter(lines[1..]);
      var f := Filter(Upload.HasContent, lines[1..]);
      if Upload.HasContent(lines[0]) {
        assert TrimAll([lines[0]] + f) == [Trim(lines[0])] + TrimAll(f) by {
          assert ([lines[0]] + f)[1..] == f;
        }
      }
    }
  }

  /** The server sees the client's content lines, each trimmed. */
  lemma SameLinesAsClient(text: string)
    ensures TrimmedLines(text) == TrimAll(Upload.ContentLines(text))
  {
    TrimThenFilter(Split(text, '\n'));
  }

  /** `h.trim().toLowerCase()` for each comma-separated field of the header line. */
  function NormalizeHeaders(js: Builtins, line: string): (headers: seq<string>)
    ensures |headers| == |Split(line, ',')|
    ensures forall i :: 0 <= i < |headers| ==> headers[i] == js.toLowerCase(Trim(Split(line, ',')[i]))
  {
    var parts := Split(line, ',');
    seq(|parts|, i requires 0 <= i < |parts| => js.toLowerCase(Trim(parts[i])))
  }

  /** The property a header is stored under: the first of nombre/edad/email it contains, else itself. */
  function HeaderKey(header: string): (key: string)
    ensures Contains(header, "nombre") ==> key == "nombre"
    ensures !Contains(header, "nombre") && Contains(header, "edad") ==> key == "edad"
    ensures !Contains(header, "nombre") && !Contains(header, "edad") && Contains(header, "email") ==> key == "email"
    ensures !Contains(header, "nombre") && !Contains(header, "edad") && !Contains(header, "email") ==> key == header
  {
    if Contains(header, "nombre") then "nombre"
    else if Contains(header, "edad") then "edad"
    else if Contains(header, "email") then "email"
    else header
  }

  /** `values[idx]`: the field at that position, or `undefined` past the end. */
  function FieldAt(values: seq<string>, idx: nat): Option<string>
  {
    if idx < |values| then Some(values[idx]) else None
  }

  /**
    The value stored for the header at `idx`: `parseInt(values[idx]) || null` under "edad",
    `values[idx] || null` otherwise.
   */
  function CellValue(js: Builtins, header: string, values: seq<string>, idx: nat): (v: Value)
    ensures v == Null || Truthy(v)
    ensures HeaderKey(header) == "edad" ==> v == OrNull(Num(ParseIntCell(js, FieldAt(values, idx))))
    ensures HeaderKey(header) != "edad" ==> (v.Null? <==> idx >= |values| || values[idx] == "")
    ensures HeaderKey(header) != "edad" && v != Null ==> v == Str(values[idx])
  {
    if !Contains(header, "nombre") && Contains(header, "edad") then
      OrNull(Num(ParseIntCell(js, FieldAt(values, idx))))
    else
      match FieldAt(values, idx)
      case None => OrNull(Undefined)
      case Some(s) => OrNull(Str(s))
  }

  /** "edad" holds `null` or a truthy number; every other property `null` or a non-empty string. */
  predicate WellTyped(key: string, v: Value)
  {
    if key == "edad" then v == Null || (v.Num? && Truthy(v))
    else v == Null || (v.Str? && v.s != "")
  }

  /** The property names a header row produces, one per header. */
  function HeaderKeys(headers: seq<string>): (keys: seq<string>)
    ensures |keys| == |headers|
    ensures forall i :: 0 <= i < |headers| ==> keys[i] == HeaderKey(headers[i])
  {
    seq(|headers|, i requires 0 <= i < |headers| => HeaderKey(headers[i]))
  }

  /**
    The row object one data line produces: one property per header key, holding the value of
    the last header with that key.
   */
  function MakeRecord(js: Builtins, headers: seq<string>, values: seq<string>): (row: Record)
    ensures forall k :: k in row <==> k in HeaderKeys(headers)
    ensures forall k :: k in row ==> WellTyped(k, row[k])
    ensures forall i :: 0 <= i < |headers| && HeaderKey(headers[i]) !in HeaderKeys(headers)[i + 1..] ==>
              row[HeaderKey(headers[i])] == CellValue(js, headers[i], values, i)
  {
    var keys := HeaderKeys(headers);
    var vals := seq(|headers|, i requires 0 <= i < |headers| => CellValue(js, headers[i], values, i));
    var row := Objects.Assign(keys, vals);
    assert forall i :: 0 <= i < |keys| ==> WellTyped(keys[i], vals[i]);
    forall k | k in row ensures WellTyped(k, row[k]) {
      var i := Objects.AssignedFrom(keys, vals, k);
    }
    row
  }

  /** `Object.values(row).some(val => val !== null && val !== '')`. */
  predicate HasData(row: Record)
  {
    exists k :: k in row && row[k] != Null && row[k] != Str("")
  }

  /** The row objects of the data lines, in order, before the empty-row filter. */
  function AllRecords(js: Builtins, headers: seq<string>, lines: seq<string>): (rows: seq<Record>)
    requires |lines| >= 1
    ensures |rows| == |lines| - 1
    ensures forall r :: 0 <= r < |rows| ==> rows[r] == MakeRecord(js, headers, Fields(lines[r + 1]))
  {
    if |lines| == 1 then [] else [MakeRecord(js, headers, Fields(lines[1]))] + AllRecords(js, headers, lines[1..])
  }

  /** The row objects of a file with a header line and at least one data line. */
  function DataRecords(js: Builtins, text: string): (rows: seq<Record>)
    requires |TrimmedLines(text)| >= 2
    ensures |rows| == |TrimmedLines(text)| - 1
  {
    var lines := TrimmedLines(text);
    AllRecords(js, NormalizeHeaders(js, lines[0]), lines)
  }

  /**
    The records the route keeps, or the error it answers with: too few lines, or no data line
    with a non-null value. Kept records are the data rows with a value, in file order.
   */
  function ParseUpload(js: Builtins, text: string): (result: Result<seq<Record>, RouteError>)
    ensures result == Err(TooFewLines) <==> |TrimmedLines(text)| < 2
    ensures result == Err(NoValidRows) <==>
              |TrimmedLines(text)| >= 2 && Count(HasData, DataRecords(js, text)) == 0
    ensures result.Ok? ==>
              && 1 <= |result.value| <= |TrimmedLines(text)| - 1
              && IsSubseq(result.value, DataRecords(js, text))
              && |result.value| == Count(HasData, DataRecords(js, text))
              && forall r :: 0 <= r < |result.value| ==> HasData(result.value[r])
  {
    if |TrimmedLines(text)| < 2 then Err(TooFewLines)
    else
      var kept := Filter(HasData, DataRecords(js, text));
      if |kept| == 0 then Err(NoValidRows) else Ok(kept)
  }

  /** The object handed to the insert: exactly the three expected columns. */
  datatype UserRecord = UserRecord(nombre: Value, edad: Value, email: Value)

  /** `row.key`, reading `undefined` when the row has no such property. */
  function Get(row: Record, key: string): Value
  {
    if key in row then row[key] else Undefined
  }

  /** `results.map(row => ({ nombre: row.nombre, edad: row.edad, email: row.email }))`. */
  function InsertRecords(rows: seq<Record>): (records: seq<UserRecord>)
    ensures |records| == |rows|
    ensures forall i :: 0 <= i < |rows| ==>
              records[i] == UserRecord(Get(rows[i], "nombre"), Get(rows[i], "edad"), Get(rows[i], "email"))
  {
    seq(|rows|, i requires 0 <= i < |rows| => UserRecord(Get(rows[i], "nombre"), Get(rows[i], "edad"), Get(rows[i], "email")))
  }

  /** Which headers land on the three named properties. */
  lemma RoutedKeys(header: string)
    ensures HeaderKey(header) == "nombre" <==> Contains(header, "nombre")
    ensures HeaderKey(header) == "edad" <==> !Contains(header, "nombre") && Contains(header, "edad")
    ensures HeaderKey(header) == "email" <==>
              !Contains(header, "nombre") && !Contains(header, "edad") && Contains(header, "email")
  {
    assert Contains("nombre", "nombre") && Contains("edad", "edad") && Contains("email", "email") by {
      assert IsPrefix("nombre", "nombre") && IsPrefix("edad", "edad") && IsPrefix("email", "email");
    }
  }

  /** Some header is routed to "nombre". */
  predicate NamesNombre(headers: seq<string>)
  {
    exists j :: 0 <= j < |headers| && Contains(headers[j], "nombre")
  }

  /** The shape every row object has: typed values, and a "nombre" property iff a header names it. */
  predicate RecordShape(headers: seq<string>, row: Record)
  {
    && ("nombre" in row <==> NamesNombre(headers))
    && forall k :: k in row ==> WellTyped(k, row[k])
  }

  lemma MakeRecordShape(js: Builtins, headers: seq<string>, values: seq<string>)
    ensures RecordShape(headers, MakeRecord(js, headers, values))
  {
    var keys := HeaderKeys(headers);
    if NamesNombre(headers) {
      var j :| 0 <= j < |headers| && Contains(headers[j], "nombre");
      assert keys[j] == "nombre";
    }
    if "nombre" in keys {
      var j :| 0 <= j < |keys| && keys[j] == "nombre";
      RoutedKeys(headers[j]);
    }
  }

  lemma KeptAreFiltered(js: Builtins, text: string)
    requires ParseUpload(js, text).Ok?
    ensures ParseUpload(js, text).value == Filter(HasData, DataRecords(js, text))
  {
  }

  lemma AllRecordsShape(js: Builtins, text: string, headers: seq<string>)
    requires |TrimmedLines(text)| >= 2
    requires headers == NormalizeHeaders(js, TrimmedLines(text)[0])
    ensures forall r :: 0 <= r < |DataRecords(js, text)| ==> RecordShape(headers, DataRecords(js, text)[r])
  {
    var lines := TrimmedLines(text);
    var all := DataRecords(js, text);
    forall r | 0 <= r < |all| ensures RecordShape(headers, all[r]) {
      MakeRecordShape(js, headers, Fields(lines[r + 1]));
    }
  }

  lemma FilterKeepsShape(headers: seq<string>, all: seq<Record>)
    requires forall r :: 0 <= r < |all| ==> RecordShape(headers, all[r])
    ensures forall r :: 0 <= r < |Filter(HasData, all)| ==> RecordShape(headers, Filter(HasData, all)[r])
  {
    var shaped := (row: Record) => RecordShape(headers, row);
    FilterPreserves(HasData, shaped, all);
  }

  /** Every record the route keeps has the shape of `RecordShape`. */
  lemma KeptShape(js: Builtins, text: string)
    requires ParseUpload(js, text).Ok?
    ensures var headers := NormalizeHeaders(js, TrimmedLines(text)[0]);
            var rows := ParseUpload(js, text).value;
            forall i :: 0 <= i < |rows| ==> RecordShape(headers, rows[i])
  {
    var headers := NormalizeHeaders(js, TrimmedLines(text)[0]);
    KeptAreFiltered(js, text);
    AllRecordsShape(js, text, headers);
    FilterKeepsShape(headers, DataRecords(js, text));
  }

  /**
    Every inserted record has exactly the fields nombre, edad and email: nombre and email are
    `undefined`, `null` or a non-empty string, edad is `undefined`, `null` or a non-zero number,
    and nombre is `undefined` exactly when no header mentions "nombre".
   */
  lemma InsertedShape(js: Builtins, text: string)
    requires ParseUpload(js, text).Ok?
    ensures var rows := ParseUpload(js, text).value;
            var headers := NormalizeHeaders(js, TrimmedLines(text)[0]);
            var records := InsertRecords(rows);
            && |records| == |rows|
            && forall i :: 0 <= i < |records| ==>
                 && (records[i].nombre == Undefined || WellTyped("nombre", records[i].nombre))
                 && (records[i].edad == Undefined || WellTyped("edad", records[i].edad))
                 && (records[i].email == Undefined || WellTyped("email", records[i].email))
                 && (records[i].nombre == Undefined <==> !NamesNombre(headers))
  {
    var rows := ParseUpload(js, text).value;
    var headers := NormalizeHeaders(js, TrimmedLines(text)[0]);
    var records := InsertRecords(rows);
    KeptShape(js, text);
    forall i | 0 <= i < |records|
      ensures records[i].nombre == Undefined || WellTyped("nombre", records[i].nombre)
      ensures records[i].edad == Undefined || WellTyped("edad", records[i].edad)
      ensures records[i].email == Undefined || WellTyped("email", records[i].email)
      ensures records[i].nombre == Undefined <==> !NamesNombre(headers)
    {
      ProjectShape(headers, rows[i]);
    }
  }

  lemma ProjectShape(headers: seq<string>, row: Record)
    requires RecordShape(headers, row)
    ensures Get(row, "nombre") == Undefined || WellTyped("nombre", Get(row, "nombre"))
    ensures Get(row, "edad") == Undefined || WellTyped("edad", Get(row, "edad"))
    ensures Get(row, "email") == Undefined || WellTyped("email", Get(row, "email"))
    ensures Get(row, "nombre") == Undefined <==> !NamesNombre(headers)
  {
  }
}

=== FILE: wrappers.dfy ===
/** Failure-compatible wrappers shared by every module of the model. */
module Wrappers {

  /** A value that may be absent; JavaScript's `null`/`undefined` cell. */
  datatype Option<+T> = None | Some(value: T)

  /** The outcome of an operation that the source aborts with an error. */
  datatype Result<+R, +E> = Ok(value: R) | Err(error: E)
}
